=== FILE: README.md ===
# Nova Nexus chat: a Dafny model of the conversation state manager and the `/ask` routing helpers

The application is a browser chat client (React) talking to a Python
(FastAPI) answering service. This project models its deterministic core and
proves properties of that model:

- **The browser's conversation state manager** (`frontend/src/App.jsx`).
  - The modules are `Intent`, `ThreadStore`, `Conversation` and `Lifecycle`.
  - The whole state is one record, `Conversation.AppState`: the threads, the
    selection, draft mode, the loading flag, the selected action, the web
    toggle and the current request token.
  - Every user or network event is a pure step function.
  - The single `await` of `runAssistant` is split into two events. The send
    (or regenerate) issues a `Request`; a later `ResolveRequest` delivers its
    `Outcome`. Any other event may come in between.
  - The active-selection effect (`Conversation.Reconcile`) runs after every
    event (`Conversation.Step`).
- **The chat panel's derived values** (`frontend/src/components/Chat.jsx`),
  in module `ChatView`: the empty screen, the one answer that may be
  regenerated, and the suggestions for the selected action.
- **The server's routing helpers** (`app/api.py`), in modules `Routing` and
  `Dates`.
  - Helpers: the web-focus test, the freshness window, the lenient
    `YYYY-MM-DD` reading of publication dates, the freshness filter and the
    live answer.
  - The decision tree of `ask`: reject with status 400, search or not, answer
    from live hits or hand over to the language model.
- **The history cleaning** of `app/services/llm.py`, in module `History`.

Shared helpers:

- `Text`: JavaScript `trim()` and Python `strip()`, each with its own
  whitespace set; ASCII lower-casing; prefix and substring tests.
- `Text` also measures strings in UTF-16 code units and cuts them as
  JavaScript's `slice` does.
- `Seqs`: an order-keeping filter-and-map, `xs[:n]`, Python's `xs[-n:]`,
  numbering with `enumerate`, and a first-match search.

Inputs instead of effects:

- `Date.now()` is the `now` field of the events.
- `crypto.randomUUID()` becomes the message and thread ids carried by the
  events. For request tokens it becomes a counter, `minted`, so every token
  is new.
- `datetime.now(timezone.utc).date()` is the `today` parameter.
- The network reply is the `Outcome` of a `ResolveRequest` event.
- The search results are the `webHits` parameter of `Routing.Route`.

Behaviour of the code that the model keeps:

- Deleting the selected thread clears the selection, but the selection
  effect then selects the most recent remaining thread
  (`Lifecycle.DeletingActiveSelectsMostRecent`). The user does not have to
  reselect.
- The history posted with a new message depends on React's scheduling. It is
  a local variable that only `upsertChat`'s updater fills in
  (App.jsx:261-270), and the request is built right after `upsertChat`
  returns (App.jsx:274). React normally runs updaters during the next
  render and may run one early; the program does not control which.
  - If the updater ran early, the history is the thread's messages and the
    new one.
  - Otherwise it is empty.
  - It is always empty for a send that creates its thread: `createChat`
    (App.jsx:252) queues updates first, so the updater cannot run early.
  - A suggestion click's `setDraft` (App.jsx:311) queues an update only
    when it changes the draft. When the draft already holds that text,
    React drops the update and the click behaves like a typed send.
  - The event's `updaterRan` field says which way React went
    (`Conversation.HistoryFilled`, `Conversation.Send`, `Lifecycle.SendAsks`).
- Regenerate is a no-op both when no user message precedes the answer and
  when the preceding user message is empty (`if (!lastUserText) return`).
- Titles are cut with `slice(0, 42)`, which counts UTF-16 code units, so a
  title of emoji holds at most 21 of them (`Text.Utf16PrefixOfAstral`).

The browser and the server also disagree on whitespace.
`Routing.NextLineOnlyMessageIsRefused` shows the case:

- JavaScript's `trim()` keeps U+0085 (and U+001C to U+001F); Python's
  `strip()` removes them.
- So a message that is only such a character passes the browser's blank
  check and is posted, and the server refuses it with status 400.
- The browser then appends the server's `detail` as an error answer.

## Model

| member | source | states |
|---|---|---|
| Text.TrimBy | frontend/src/App.jsx:87 | `trim()`/`strip()` leave no whitespace at either end, and give "" exactly when the text is all whitespace |
| Text.TrimIsCut | app/services/llm.py:54 | a trimmed string is the slice left after cutting whitespace off both ends |
| Text.TrimIdempotent | app/services/llm.py:54 | trimming twice is trimming once |
| Text.Contains | app/api.py:40 | `t in s` holds exactly when `t` occurs at some position of `s` |
| Text.LowerAppend | frontend/src/App.jsx:81 | lower-casing works character by character, so it distributes over concatenation |
| Text.Utf16Length | frontend/src/App.jsx:173 | a string takes between one and two UTF-16 code units per character |
| Text.Utf16LengthAppend | frontend/src/App.jsx:173 | code units add up over concatenation |
| Text.Utf16Prefix | frontend/src/App.jsx:173 | `slice(0, n)` on whole characters: a prefix that fits in `n` code units and that the next character would overflow; not empty for non-empty text when `n` is at least 2 |
| Text.Utf16PrefixUnique | frontend/src/App.jsx:173 | any prefix that fits and cannot take one more character is the one `slice` cuts |
| Text.Utf16PrefixGrows | frontend/src/App.jsx:173 | a longer prefix takes at least the code units of the character that extends the shorter one |
| Text.Utf16LengthOfBmp | frontend/src/App.jsx:173 | inside the Basic Multilingual Plane, code units and characters agree |
| Text.Utf16PrefixOfBmp | frontend/src/App.jsx:173 | inside the Basic Multilingual Plane, `slice(0, n)` keeps the first `n` characters |
| Text.Utf16PrefixOfAstral | frontend/src/App.jsx:173 | on characters beyond that plane, `slice(0, n)` keeps `n / 2` of them |
| Text.StrippedOrIsStripOfOr | app/api.py:87-90 | `(value or fallback).strip()` is the stripped value when one is present, else the (already stripped) fallback |
| Intent.FirstLabelMatch | frontend/src/App.jsx:82 | the index found is the first catalog entry whose lower-cased label starts the text; none found means no entry matches |
| Intent.InferActionKey | frontend/src/App.jsx:79-84 | an explicitly selected action is returned unchanged; otherwise the key of the first action whose lower-cased label is a prefix of the lower-cased trimmed text, and none exactly when no label is |
| Intent.CompareIsInferredFromText | frontend/src/App.jsx:79-84 | any message that starts with "Compare" is inferred as the compare action |
| Intent.ToTurns | frontend/src/App.jsx:97 | the history keeps its length and order, reduced to role and content |
| Intent.BuildBackendPayload | frontend/src/App.jsx:86-101 | the question is `prefix + " " + trim(text)` for an action with a prefix and `trim(text)` otherwise; `use_web` is the toggle; mode "chat" with the toggle off, otherwise "web" exactly for research/latest and "auto" for the rest; messages mirror the history |
| Intent.PrefixedActionsAreTheNonWebOnes | frontend/src/App.jsx:68-91 | among the eight actions, exactly those that do not ask for the web by themselves carry an instruction prefix |
| ThreadStore.FindIndex | frontend/src/App.jsx:158 | `findIndex` returns the first position with the id, and none exactly when no thread has it |
| ThreadStore.FindThread | frontend/src/App.jsx:128 | `find` returns a member with the id, and none exactly when no thread has it |
| ThreadStore.FindThreadOfMember | frontend/src/App.jsx:128 | with distinct ids, the thread found for a member's id is that member |
| ThreadStore.InsertByRecency | frontend/src/App.jsx:163 | inserting adds exactly one element (as a multiset) |
| ThreadStore.InsertKeepsOrder | frontend/src/App.jsx:163 | inserting into a list in recency order keeps it in recency order |
| ThreadStore.InsertMembers | frontend/src/App.jsx:163 | the members after insertion are the old ones plus the inserted thread |
| ThreadStore.InsertKeepsDistinct | frontend/src/App.jsx:163 | inserting a thread with a new id keeps ids distinct |
| ThreadStore.SortByRecency | frontend/src/App.jsx:163 | the sort is a permutation of its input |
| ThreadStore.SortIsOrdered | frontend/src/App.jsx:163 | the sorted list is most recently updated first |
| ThreadStore.SortMembers | frontend/src/App.jsx:163 | sorting keeps exactly the same threads |
| ThreadStore.SortKeepsDistinct | frontend/src/App.jsx:163 | sorting keeps ids distinct |
| ThreadStore.SortOfSortedIsIdentity | frontend/src/App.jsx:163 | sorting a list already in recency order changes nothing |
| ThreadStore.WithoutMessageMembers | frontend/src/App.jsx:343 | filtering by id keeps exactly the messages with another id |
| ThreadStore.WithoutUniqueMessage | frontend/src/App.jsx:343 | when only position `k` carries the id, the filter removes exactly that message and keeps the rest in order |
| ThreadStore.WithoutAbsentMessage | frontend/src/App.jsx:343 | filtering by an id no message has changes nothing |
| ThreadStore.ApplyEdit | frontend/src/App.jsx:216-270 | each updater keeps id and creation time and stamps `updatedAt`; a reply or user turn is appended after the existing messages; the first user turn sets the title to the longest prefix of its text that fits in 42 UTF-16 code units; the drop removes exactly the messages with the id |
| ThreadStore.Upsert | frontend/src/App.jsx:156-166 | a missing id returns the list unchanged; otherwise the length is kept, the result is the list with that one thread replaced by its edit (as a multiset), it is in recency order, and the same ids are present |
| ThreadStore.UpsertKeepsDistinct | frontend/src/App.jsx:156-166 | an upsert keeps ids distinct |
| ThreadStore.UpsertFind | frontend/src/App.jsx:156-166 | after an upsert, the id finds the edited thread and every other id finds what it found before |
| ThreadStore.TitleFor | frontend/src/App.jsx:173 | the title is a prefix of the trimmed text that fits in 42 UTF-16 code units and that no further character would fit after, or "New Chat" when the trimmed text is empty; never empty |
| ThreadStore.FirstTurnTitle | frontend/src/App.jsx:266 | a thread with messages keeps its title; an empty one takes the longest prefix of the first message that fits in 42 UTF-16 code units |
| ThreadStore.NewThread | frontend/src/App.jsx:169-177 | a new thread has no messages and `createdAt == updatedAt == now` |
| ThreadStore.RemoveThread | frontend/src/App.jsx:286 | deletion keeps exactly the threads with another id |
| ThreadStore.RemoveThreadIds | frontend/src/App.jsx:286 | after deletion no thread has the id, and every other id is present exactly when it was |
| ThreadStore.RemoveAbsentThread | frontend/src/App.jsx:286 | deleting an id no thread has changes nothing |
| ThreadStore.RemoveThreadKeepsInvariants | frontend/src/App.jsx:286 | deletion keeps recency order and distinct ids |
| Conversation.ReplyMessage | frontend/src/App.jsx:206-231 | the assistant entry carries the answer, else the fixed no-answer text; on error the `detail`, else the `message`, else the fixed failure text; never empty |
| Conversation.ActiveChat | frontend/src/App.jsx:127-130 | no active thread while drafting; otherwise the thread the selection names, none exactly when it names none that exists |
| Conversation.Reconcile | frontend/src/App.jsx:146-154 | afterwards the selection is settled; only the selection changes; a settled state or a draft with threads is left alone; a new selection is the first thread |
| Conversation.CanCreateNewThread | frontend/src/App.jsx:184-194 | false while loading or drafting; otherwise true exactly when the active thread has a message, or, with none active, when some thread has one |
| Conversation.RunAssistant | frontend/src/App.jsx:196-203 | a new token is minted and made current, loading is raised, and the payload is built from the text, action, toggle and history; threads are untouched |
| Conversation.Resolve | frontend/src/App.jsx:204-242 | a result whose token is not current changes nothing; a current one clears token and loading and changes only the threads; a thread that no longer exists is not recreated |
| Conversation.Stop | frontend/src/App.jsx:279-282 | the token is forgotten and loading dropped; nothing else changes |
| Conversation.CreateChat | frontend/src/App.jsx:168-182 | the new thread is put in front, selected, and draft mode ends |
| Conversation.SendTarget | frontend/src/App.jsx:252 | the active thread is used if there is one, otherwise a new thread is created; either way it exists and draft mode is over |
| Conversation.Send | frontend/src/App.jsx:247-277 | blank text, or any text while loading, changes nothing and asks nothing; otherwise a request with the next token is issued, made current, loading is raised and the selected action consumed; its history is non-empty exactly when the updater ran before the request was built, which can happen only for a send into an existing thread |
| Conversation.HistoryFilled | frontend/src/App.jsx:252-274 | the history holds messages only when the updater ran early and the thread already existed |
| Conversation.Delete | frontend/src/App.jsx:284-290 | the thread is gone, every other thread stays, and the selection is cleared exactly when it named the deleted thread |
| Conversation.Select | frontend/src/App.jsx:364-367 | choosing a thread ends draft mode and selects it |
| Conversation.RequestNewThread | frontend/src/App.jsx:292-298 | enters draft mode (no selection, no action) only when the guard allows; otherwise nothing changes |
| Conversation.MessageIndex | frontend/src/App.jsx:328 | the first position of the message id, and none exactly when it is absent |
| Conversation.LastUserText | frontend/src/App.jsx:332-338 | the text of the last user message before the answer, or "" when no user message precedes it |
| Conversation.LastIndexOfRole | frontend/src/App.jsx:333-338 | the backward scan finds the last message with the role before the end index, and none exactly when there is none |
| Conversation.Regenerate | frontend/src/App.jsx:325-356 | it asks again exactly when there is an active thread, nothing is loading, the id is in that thread and a non-empty user text precedes it; otherwise nothing changes |
| Conversation.Step | frontend/src/App.jsx:146-154 | after every event and the selection effect, the selection is settled |
| Lifecycle.InitialInv | frontend/src/App.jsx:119-125 | the first-visit state meets the invariant |
| Lifecycle.ReconcileKeepsCore | frontend/src/App.jsx:146-154 | the selection effect establishes the full invariant from the rest of it |
| Lifecycle.SendRecordsTurn | frontend/src/App.jsx:247-277 | a send appends the trimmed text as a user message to its thread (the active one or the new one) and titles a thread with no messages after that text |
| Lifecycle.SendLeavesOthers | frontend/src/App.jsx:252-271 | a send leaves every thread but its own as it was |
| Lifecycle.SendAsks | frontend/src/App.jsx:252-276 | the request is built from the trimmed text, the inferred action and the web toggle; it carries the thread's messages and the new one when the updater had run, and no history otherwise |
| Lifecycle.SendKeepsCore | frontend/src/App.jsx:247-277 | a send keeps the threads in recency order with distinct ids, and loading up exactly while a token is current |
| Lifecycle.RegenerateKeepsCore | frontend/src/App.jsx:325-356 | a regenerate keeps the same invariant |
| Lifecycle.StepKeepsInv | frontend/src/App.jsx:146-166 | every event keeps the invariant: recency order, distinct ids, loading iff a token is current, draft mode without selection, selection settled |
| Lifecycle.RunKeepsInv | frontend/src/App.jsx:146-166 | every trace of events with fresh thread ids keeps the invariant |
| Lifecycle.StepKeepsStale | frontend/src/App.jsx:198-199 | a token that is not current never becomes current again |
| Lifecycle.StepIssuesFreshToken | frontend/src/App.jsx:198-200 | an event issues at most one request, carrying a token never used before |
| Lifecycle.StaleResultNeverApplied | frontend/src/App.jsx:204-242 | whatever events follow, the result of a superseded or stopped request changes nothing, on success and on error alike |
| Lifecycle.ResultAppliedAtMostOnce | frontend/src/App.jsx:237-241 | a result that was delivered once changes nothing when delivered again |
| Lifecycle.SupersededResultDropped | frontend/src/App.jsx:198-204 | once a newer request is issued, the older one's result is dropped |
| Lifecycle.StoppedResultDropped | frontend/src/App.jsx:279-282 | after a stop, the pending result is dropped |
| Lifecycle.StepNeverRecreates | frontend/src/App.jsx:156-159 | no event but a send that creates that very id brings a thread id back |
| Lifecycle.DeletedThreadStaysGone | frontend/src/App.jsx:284-290 | a thread that is gone stays gone through any trace of events |
| Lifecycle.DeleteDuringRequest | frontend/src/App.jsx:284-290 | deleting a thread with a request pending removes it for good, whenever the result arrives |
| Lifecycle.DeleteRemoves | frontend/src/App.jsx:286 | a delete event leaves no thread with that id |
| Lifecycle.DeletingActiveSelectsMostRecent | frontend/src/App.jsx:146-154 | deleting the selected thread ends with the most recent remaining thread selected, or none |
| Lifecycle.ResultForMissingThread | frontend/src/App.jsx:158-159 | a result for a thread that no longer exists mutates no thread |
| Lifecycle.ResolveAppendsReply | frontend/src/App.jsx:216-220 | a current result is appended after that thread's messages and stamps it; other threads are unchanged, the order kept, loading cleared |
| Lifecycle.RegenerateReasks | frontend/src/App.jsx:339-353 | a regenerate that goes through removes exactly that message from its thread, leaves others alone, and asks again with the last preceding user text and the messages before the answer |
| ChatView.LatestAssistantId | frontend/src/components/Chat.jsx:40-46 | none without a thread; otherwise the id of the highest-index assistant message, and none exactly when there is no assistant message |
| ChatView.IsEmptyScreen | frontend/src/components/Chat.jsx:29 | the start screen shows when no thread is open or the open one has no messages |
| ChatView.EmptyScreenHasNoLatest | frontend/src/components/Chat.jsx:29 | the empty screen offers no answer to regenerate |
| ChatView.AppendedAnswerIsLatest | frontend/src/components/Chat.jsx:42-44 | an answer just appended becomes the one that may be regenerated |
| ChatView.NewThreadAllowedOffEmptyScreen | frontend/src/App.jsx:189-194 | with a thread open and nothing loading, a new thread may be started exactly when the chat is not on the empty screen |
| ChatView.Suggestions | frontend/src/components/Chat.jsx:35-38 | nothing without a selected action, the table entry for a selected one, nothing for a key the table lacks |
| ChatView.SuggestionsCoverCatalog | frontend/src/App.jsx:17-66 | the suggestion table has an entry exactly for the eight action keys, four prompts each |
| Seqs.KeptIndices | app/api.py:70-80 | the filter's output is the accepted elements at strictly increasing input positions, and every accepted position is among them |
| Seqs.FilterMapSound | app/api.py:71-79 | everything kept comes from an accepted input element |
| Seqs.FilterMapComplete | app/api.py:71-79 | every accepted input element is kept |
| Seqs.FirstN | frontend/src/App.jsx:173 | `slice(0, n)` and `[:n]` keep the first `min(n, length)` elements |
| Seqs.IndexWhere | frontend/src/App.jsx:158 | `findIndex` returns the first position whose element passes the test, and none exactly when none does |
| Seqs.LastN | app/services/llm.py:58 | `xs[-n:]` is the suffix of length `min(n, len)` |
| Dates.OrdinalOrder | app/api.py:75 | day numbers order dates as the calendar does, and equal day numbers mean equal dates |
| Dates.FormatIso | app/api.py:84 | `isoformat()` is ten characters with dashes at positions 4 and 7 |
| Dates.MonthField | app/api.py:51 | the `%m` field reads a month 1-12 followed by `-` |
| Dates.DayField | app/api.py:51 | the `%d` field reads a day 1-31 |
| Dates.ParseYmd | app/api.py:51 | `strptime(..., "%Y-%m-%d")` succeeds only on a date that exists |
| Dates.ParseFormatted | app/api.py:51 | every date's ISO form reads back as that date |
| Dates.ParseIsoDate | app/api.py:43-53 | none for a missing, empty or blank value; any date read is valid |
| Dates.ParseIsoPrefix | app/api.py:46-51 | a value starting with a date's ISO form reads as that date, whatever follows |
| Dates.FirstTenCharactersDecide | app/api.py:49 | values whose stripped texts agree on the first ten characters read alike |
| Routing.ContainsAny | app/api.py:40 | true exactly when one of the words occurs in the text |
| Routing.QuestionLooksWebFocused | app/api.py:37-40 | true exactly when one of the seven trigger words occurs in the lower-cased question |
| Routing.FreshnessWindowDays | app/api.py:56-64 | the window is one of 1, 8, 14 and 35 days |
| Routing.FreshnessWindowCases | app/api.py:56-64 | 1 exactly when "today" occurs; else 8 exactly for "this week" or "weekly"; else 35 exactly for "this month"; else 14 |
| Routing.OneDayWindowIsWebFocused | app/api.py:37-64 | a question with the one-day window always counts as web-focused |
| Routing.ReadingsIgnoreCase | app/api.py:37-64 | neither reading of the question depends on letter case |
| Routing.IsFresh | app/api.py:72-78 | a hit is fresh when its date reads and is between 0 and the window's days before today |
| Routing.FreshnessWidens | app/api.py:72-78 | a hit whose date does not read is never fresh, and a wider window keeps every hit a narrower one keeps |
| Routing.FilterFreshHits | app/api.py:67-80 | the loop keeps in order exactly the hits whose date reads and is 0 to window days old |
| Routing.FreshHitsExactly | app/api.py:71-79 | every kept hit is fresh and every fresh hit is kept |
| Seqs.FilterIsSubsequence | app/api.py:71-79 | a filter that only keeps or drops elements returns them at increasing positions of its input |
| Routing.FreshHitsInOrder | app/api.py:67-80 | the kept hits are an order-preserving subsequence of the input |
| Routing.FreshnessByDate | app/api.py:72-77 | a hit whose date is missing, unreadable or after today is dropped; one dated today is kept |
| Routing.LiveEntryFields | app/api.py:87-90 | title stripped or "Untitled"; published as given or "unknown"; snippet stripped and cut to 220; url stripped |
| Seqs.Enumerate | app/api.py:86 | `enumerate(xs, start=first)` mapped through `f`: as long as its input, element `k` made from `xs[k]` with number `first + k` |
| Routing.LiveEntries | app/api.py:86 | only the first five hits are listed, numbered from 1 |
| Routing.LiveEntriesNumbered | app/api.py:86-93 | at most five entries, numbered 1, 2, ... with snippets of at most 220 characters |
| Routing.EntryLines | app/api.py:91-95 | a numbered title line, then the indented snippet when there is one, then the source line when there is a URL; every line opens with a digit or indentation |
| Routing.EntriesLines | app/api.py:86-95 | one to three lines per entry, each opening with a digit or indentation |
| Routing.MentionsSummary | app/api.py:96 | "summary" at the start of a word, or "summarize" at the end of one, in any case |
| Routing.SummaryMentions | app/api.py:96 | a question that opens with "summary" or closes with "summarize" asks for a summary |
| Routing.LiveHeader | app/api.py:84-85 | the header is dated today and is not the summary line |
| Routing.SummaryCloses | app/api.py:96-97 | header and entry lines never read as the summary line, so the last line is the summary line exactly when one was added |
| Routing.LiveAnswerLines | app/api.py:84-97 | the dated header, then exactly the entry lines of at most five hits, then the summary line exactly when the question asks for a summary |
| Routing.JoinLines | app/api.py:98 | the joined text starts with the first line |
| Routing.JoinLinesAppend | app/api.py:98 | joining two non-empty runs of lines puts one newline between their joins |
| Routing.JoinClosing | app/api.py:96-98 | a closing summary line ends the text with a newline and that line |
| Routing.BuildLiveAnswer | app/api.py:83-98 | the live answer is the joined header and entry lines, followed by a newline and the summary line exactly when the question asks for a summary |
| Routing.PlanAsk | app/api.py:103-118 | a question that strips to nothing is refused with 400 before any search; otherwise web is included exactly when `use_web`, mode "web", or mode "auto" with a web-focused question; freshness is required exactly for web-focused questions; at most 8 hits are asked for |
| Routing.ChatModeStaysOffline | app/api.py:107-109 | mode "chat" without the web flag never searches |
| Routing.AutoModeSearchesWhenFreshnessNeeded | app/api.py:107-110 | in mode "auto", a question that needs fresh results is always searched |
| Routing.PlanFollowsWebFlag | app/api.py:107-109 | a request with the flag set, or in mode "chat", is searched exactly when the flag is set |
| Routing.WebToggleDecidesSearch | app/api.py:107-109 | for any payload the browser builds (default `top_k` 6), the server searches exactly when the browser's web toggle was on |
| Routing.SentButRefused | app/api.py:103-105 | a message the browser's trim keeps but Python's strip empties is refused with 400 |
| Routing.NextLineOnlyMessageIsRefused | app/api.py:103-105 | a message made only of U+0085 passes the browser's trim but is refused with 400 |
| Routing.SourceOf | app/api.py:138-146 | a source keeps the hit's title, URL, date and engine; its preview is the raw snippet ("" when missing) cut to its first 220 characters |
| Routing.SourcesOf | app/api.py:157-167 | one source per hit, in order |
| Routing.OfflineIgnoresHits | app/api.py:115 | without the web, the search results play no part in the reply |
| Routing.FreshReply | app/api.py:121-155 | after the freshness filter: the apology exactly when nothing survived, otherwise the live answer with the first five survivors as sources, previews at most 220 characters |
| Routing.Route | app/api.py:115-193 | with the web on and freshness required: no fresh hit gives the apology, otherwise the live answer with at most five sources; otherwise the model answers, intent "web" exactly when the web is on; with the web off no sources and no grounding, with it on one source per hit and grounding exactly when there were hits |
| History.CleanEntry | app/services/llm.py:53-56 | an entry is kept exactly when its role is "user" or "assistant" and its stripped content is non-empty, with that role and content |
| History.ToHistoryMessages | app/services/llm.py:50-58 | at most ten entries, a suffix of the cleaned list; all of it when it has at most ten, exactly ten otherwise; when every entry survives and there are at most ten, entry `i` of the result is the cleaning of input entry `i` |
| History.CleanedEntriesWellFormed | app/services/llm.py:51-57 | every cleaned entry has a chat role and non-empty stripped content taken from its source entry, in input order |
| History.ShortCleanHistoryKept | app/services/llm.py:50-58 | when every entry survives cleaning and there are at most ten, the cleaned list has one entry per input entry, each the cleaning of the entry at the same place, and the last-ten cut keeps all of it |

## Left out

- Rendering, layout, scrolling, icons and the clipboard are presentation with no state to verify.
- Storage of the threads and the selection in `localStorage` (App.jsx:104-118, 132-144) is external I/O. The model starts from the first-visit state, `Conversation.Initial`.
- The draft text is left out: it is only input-box text.
- The answering-service call (`askChat`, `generate_answer` and its Groq request) and `search_web` are left out. Their results are event fields and parameters.
- Timers, concurrency and the axios timeout are left out. The single `await` is modelled as two events that any other event may separate.
- Conversation.Send: React's scheduling is not modelled. Whether `upsertChat`'s updater had run when the request was built is an input, the `updaterRan` field of the event, constrained only by the cases where it cannot have run.
- Each thread and message id is assumed distinct from every other and never empty, as `crypto.randomUUID()` makes it. A send that creates a thread needs a fresh id (`Lifecycle.FreshChatId`).
- Lower-casing is modelled for ASCII letters only, where JavaScript's `toLowerCase` and Python's `lower` cover all of Unicode. Likewise the `\d` and `\b` of Python's regular expressions are modelled for ASCII digits and word characters.
- Routing.MentionsSummary: `re.IGNORECASE` Unicode case folding (for example the Kelvin sign matching `k`) is not modelled.
- Routing.Route: the building of the model's context string (api.py:157-176) is not modelled. This includes its 12000-character cut and the model's answer text. Grounding is stated as "the search returned hits", which is what a non-empty context amounts to.
- Routing.PlanAsk: the request validation of the server's request model is a precondition (`top_k` between 1 and 20) rather than a 422 error path.
- Routing.JoinLines: its own contract states only the first line; how runs of lines join is stated by `Routing.JoinLinesAppend`.
- Routing.EntriesLines: states bounds on the number of lines and how each line opens; the exact line contents are stated for one entry by `Routing.EntryLines`.
- ThreadStore.TitleFor (and ThreadStore.FirstTurnTitle, ThreadStore.ApplyEdit): when the 42nd code unit is the first half of a surrogate pair, JavaScript's `slice` keeps that lone half. Strings of the model hold whole characters only, so the modelled title stops before the pair.
- Publication dates, roles and contents that are JSON values other than strings (numbers, lists) are not modelled. A date's `str()` form is not modelled either.
- A suggestion click (App.jsx:308-315) is a `SendText` event. The draft text it sets is left out with the draft, so whether its `setDraft` delayed the updater is part of the event's `updaterRan`.
- Suggestions looked up under JavaScript's inherited object keys (for example `"constructor"`) are not modelled. The table has exactly the eight action keys.
- Dates.ParseYmd: years are read as four ASCII digits. `strptime`'s acceptance of other Unicode decimal digits is not modelled.

=== FILE: chat_view.dfy ===
/**
  What the chat panel derives from the active thread: whether the empty
  start screen shows, which answer carries the regenerate button, and the
  suggestions offered for the selected action.
 */
module ChatView {
  import opened Wrappers
  import opened Entities
  import opened Intent
  import opened Conversation

  /** The start screen shows when no thread is open or the open one has no messages. */
  predicate IsEmptyScreen(chat: Option<Thread>) {
    chat.None? || |chat.value.messages| == 0
  }

  /**
    `latestAssistantId`: the id of the last answer in the open thread, the
    only one that may be regenerated; none without a thread or an answer.
   */
  function LatestAssistantId(chat: Option<Thread>): (r: Option<string>)
    ensures chat.None? ==> r.None?
    ensures chat.Some? && r.None? ==>
              forall j :: 0 <= j < |chat.value.messages| ==> chat.value.messages[j].role != Assistant
    ensures r.Some? ==>
              chat.Some? &&
              exists i :: 0 <= i < |chat.value.messages| && chat.value.messages[i].role == Assistant
                          && chat.value.messages[i].id == r.value
                          && forall j :: i < j < |chat.value.messages| ==> chat.value.messages[j].role != Assistant
  {
    match chat
    case None => None
    case Some(t) =>
      match LastIndexOfRole(t.messages, Assistant, |t.messages|)
      case Some(i) => Some(t.messages[i].id)
      case None => None
  }

  /** An empty screen offers no answer to regenerate. */
  lemma EmptyScreenHasNoLatest(chat: Option<Thread>)
    requires IsEmptyScreen(chat)
    ensures LatestAssistantId(chat).None?
  {
  }

  /** An answer just appended to a thread becomes the one that may be regenerated. */
  lemma AppendedAnswerIsLatest(t: Thread, m: Message)
    requires m.role == Assistant
    ensures LatestAssistantId(Some(t.(messages := t.messages + [m]))) == Some(m.id)
  {
    var ms := t.messages + [m];
    assert ms[|ms| - 1] == m;
  }

  /**
    Outside loading and draft mode, with a thread open, a new thread may be
    started exactly when the open thread is not on the empty screen.
   */
  lemma NewThreadAllowedOffEmptyScreen(s: AppState)
    requires !s.isLoading && !s.isDraftThread && ActiveChat(s).Some?
    ensures CanCreateNewThread(s) <==> !IsEmptyScreen(ActiveChat(s))
  {
  }

  /** The prompts suggested for each action. */
  const ResearchPrompts: seq<string> := [
    "Why is Nvidia growing so rapidly?",
    "Research the latest AI developments",
    "What are the key trends in robotics?",
    "What are the latest breakthroughs in renewable energy?"
  ]

  const ComparePrompts: seq<string> := [
    "Compare ChatGPT, Claude, and Gemini for technical writing",
    "Compare SQL vs NoSQL for analytics-heavy products",
    "Compare hiring in-house vs outsourcing for MVP delivery",
    "Compare Tesla and BYD strategies in EV expansion"
  ]

  const BrainstormPrompts: seq<string> := [
    "Brainstorm 10 startup ideas in climate tech",
    "Generate creative marketing angles for an AI product",
    "Brainstorm product names for a premium research assistant",
    "Give me unconventional growth ideas for a developer tool"
  ]

  const LatestPrompts: seq<string> := [
    "Latest news today",
    "What happened in tech this week?",
    "Recent breakthroughs in medicine",
    "Latest AI model releases"
  ]

  const SummarizePrompts: seq<string> := [
    "Summarize the key differences between supervised and unsupervised learning",
    "Summarize this quarter's product priorities into 5 bullets",
    "Summarize the causes and impact of inflation",
    "Summarize this article in plain English for a non-technical audience"
  ]

  const ExplainPrompts: seq<string> := [
    "Explain blockchain like I am 12 years old",
    "Explain how recommendation systems work in streaming apps",
    "Explain the difference between GPU and CPU with examples",
    "Explain microservices vs monolith architecture"
  ]

  const ValidatePrompts: seq<string> := [
    "Validate my SaaS pricing model assumptions",
    "Validate whether this GTM strategy is realistic",
    "Validate this startup idea and identify key risks",
    "Validate if this roadmap can be delivered in 90 days"
  ]

  const PlanPrompts: seq<string> := [
    "Plan a 30-60-90 day AI product launch roadmap",
    "Plan a full-stack learning path for the next 4 months",
    "Plan a weekly content strategy for a developer brand",
    "Plan migration from a monolith to microservices"
  ]

  /** The suggestion table of the action bar, one entry per catalogued action. */
  function SuggestionsFor(key: string): Option<seq<string>> {
    match key
    case "research" => Some(ResearchPrompts)
    case "compare" => Some(ComparePrompts)
    case "brainstorm" => Some(BrainstormPrompts)
    case "latest" => Some(LatestPrompts)
    case "summarize" => Some(SummarizePrompts)
    case "explain" => Some(ExplainPrompts)
    case "validate" => Some(ValidatePrompts)
    case "plan" => Some(PlanPrompts)
    case _ => None
  }

  /**
    `suggestions`: nothing without a selected action (an empty key counts as
    none), the table's entry for a selected action, nothing for a key the
    table lacks.
   */
  function Suggestions(selected: Option<string>): (r: seq<string>)
    ensures selected.None? || selected.value == "" ==> r == []
    ensures selected.Some? && SuggestionsFor(selected.value).None? ==> r == []
    ensures selected.Some? && SuggestionsFor(selected.value).Some? ==> r == SuggestionsFor(selected.value).value
  {
    if selected.None? || selected.value == "" then []
    else SuggestionsFor(selected.value).GetOr([])
  }

  /** The suggestion table and the action catalog have the same keys; each entry has four prompts. */
  lemma SuggestionsCoverCatalog(key: string)
    ensures SuggestionsFor(key).Some? <==> exists i :: 0 <= i < |Actions| && Actions[i].key == key
    ensures SuggestionsFor(key).Some? ==> |Suggestions(Some(key))| == 4
  {
    var keys := ["research", "compare", "latest", "summarize", "explain", "brainstorm", "validate", "plan"];
    assert forall i :: 0 <= i < |Actions| ==> Actions[i].key == keys[i];
    if SuggestionsFor(key).Some? {
      assert key in keys;
    }
  }
}

=== FILE: conversation.dfy ===
/**
  The browser's conversation state manager as one state record and one pure
  step function per user or network event. The single `await` of a request
  is split in two events: the send (or regenerate) that issues the request,
  and the later `Resolve` that delivers its result; any other event may come
  in between.
 */
module Conversation {
  import opened Wrappers
  import opened Text
  import opened Entities
  import opened Protocol
  import opened Intent
  import opened ThreadStore
  import opened Seqs

  /**
    `currentRequest` is `activeRequestRef.current`. Request tokens are drawn
    from the counter `minted`, which stands for `crypto.randomUUID()`: every
    token is new.
   */
  datatype AppState = AppState(
    threads: seq<Thread>,
    activeChatId: Option<string>,
    isDraftThread: bool,
    isLoading: bool,
    selectedAction: Option<string>,
    webSearchEnabled: bool,
    currentRequest: Option<nat>,
    minted: nat)

  /** The state on a first visit, with nothing saved. */
  const Initial: AppState := AppState([], None, false, false, None, false, None, 0)

  /** An issued request: its token, the thread its answer is for, and what was posted. */
  datatype Request = Request(token: nat, chatId: string, payload: Payload)

  /** The server's response body, when there is one. */
  datatype Reply = Reply(answer: Option<string>, sources: Option<seq<Source>>)

  /**
    How a request ended: with a response (possibly empty), or with an error
    carrying the server's `detail` and the transport's `message`, either of
    which may be missing.
   */
  datatype Outcome = Answered(reply: Option<Reply>) | Failed(detail: Option<string>, message: Option<string>)

  const NoAnswerText: string := "I could not generate a response from the backend. Please try again."
  const RequestFailedText: string := "Request failed. Check backend status and try again."

  /** A JavaScript string value in a `||` chain: present and non-empty. */
  predicate Truthy(s: Option<string>) {
    s.Some? && s.value != ""
  }

  /**
    The assistant entry a finished request produces: the answer, or the error
    description, falling back to a fixed text, so the entry is never empty.
   */
  function ReplyMessage(o: Outcome, id: string, now: int): (m: Message)
    ensures m.id == id && m.role == Assistant && m.createdAt == now
    ensures m.content != ""
    ensures o.Answered? ==> m.sources.Some?
    ensures o.Failed? ==> m.sources.None?
    ensures o.Answered? && o.reply.Some? && Truthy(o.reply.value.answer) ==> m.content == o.reply.value.answer.value
    ensures o.Answered? && !(o.reply.Some? && Truthy(o.reply.value.answer)) ==> m.content == NoAnswerText
    ensures o.Failed? && Truthy(o.detail) ==> m.content == o.detail.value
    ensures o.Failed? && !Truthy(o.detail) && Truthy(o.message) ==> m.content == o.message.value
    ensures o.Failed? && !Truthy(o.detail) && !Truthy(o.message) ==> m.content == RequestFailedText
  {
    match o
    case Answered(reply) =>
      var content := if reply.Some? && Truthy(reply.value.answer) then reply.value.answer.value else NoAnswerText;
      var sources := if reply.Some? && reply.value.sources.Some? then reply.value.sources.value else [];
      Message(id, Assistant, content, Some(sources), now)
    case Failed(detail, message) =>
      var content := if Truthy(detail) then detail.value
                     else if Truthy(message) then message.value
                     else RequestFailedText;
      Message(id, Assistant, content, None, now)
  }

  /** `activeChat`: no thread while drafting, else the thread the selection names, if it exists. */
  function ActiveChat(s: AppState): (r: Option<Thread>)
    ensures r.Some? ==> !s.isDraftThread && s.activeChatId == Some(r.value.id) && r.value in s.threads
    ensures r.None? <==> s.isDraftThread || s.activeChatId.None? || !HasId(s.threads, s.activeChatId.value)
  {
    if s.isDraftThread || s.activeChatId.None? then None
    else FindThread(s.threads, s.activeChatId.value)
  }

  /**
    The selection rule every state settles into: no selection without
    threads, and outside draft mode an existing thread is selected.
   */
  ghost predicate Settled(s: AppState) {
    && (|s.threads| == 0 ==> s.activeChatId.None?)
    && (|s.threads| > 0 && !s.isDraftThread ==> s.activeChatId.Some? && HasId(s.threads, s.activeChatId.value))
  }

  /**
    The effect that repairs the selection: cleared when there are no
    threads, left alone while drafting, otherwise moved to the first (most
    recent) thread when it names none. Only the selection changes.
   */
  function Reconcile(s: AppState): (r: AppState)
    ensures Settled(r)
    ensures r == s.(activeChatId := r.activeChatId)
    ensures Settled(s) ==> r == s
    ensures s.isDraftThread && |s.threads| > 0 ==> r == s
    ensures r.activeChatId.Some? ==> r.activeChatId == s.activeChatId || r.activeChatId == Some(s.threads[0].id)
  {
    if |s.threads| == 0 then s.(activeChatId := None)
    else if s.isDraftThread then s
    else if s.activeChatId.Some? && HasId(s.threads, s.activeChatId.value) then s
    else
      assert s.threads[0] in s.threads;
      s.(activeChatId := Some(s.threads[0].id))
  }

  /**
    `canCreateNewThread`: never while loading or drafting; otherwise when
    the active thread has a message, or, with none active, when any thread
    has one. Either way some thread then holds a message, so no empty
    thread is ever abandoned for a new one.
   */
  function CanCreateNewThread(s: AppState): (r: bool)
    ensures r ==> !s.isLoading && !s.isDraftThread
    ensures r ==> exists y :: y in s.threads && |y.messages| > 0
    ensures !s.isLoading && !s.isDraftThread && ActiveChat(s).Some? ==>
              (r <==> |ActiveChat(s).value.messages| > 0)
    ensures !s.isLoading && !s.isDraftThread && ActiveChat(s).None? ==>
              (r <==> exists y :: y in s.threads && |y.messages| > 0)
  {
    if s.isLoading || s.isDraftThread then false
    else match ActiveChat(s)
      case Some(t) => |t.messages| > 0
      case None => exists y :: y in s.threads && |y.messages| > 0
  }

  /**
    The first half of `runAssistant`: mint a new token, make it current,
    raise the loading flag, and post the payload built from the text, the
    action, the web toggle and the history. The threads do not change.
   */
  function RunAssistant(s: AppState, chatId: string, userText: string, actionKey: Option<string>,
                        history: seq<Message>): (r: (AppState, Request))
    ensures r.1.token == s.minted && r.0.minted == s.minted + 1
    ensures r.0.currentRequest == Some(r.1.token) && r.0.isLoading
    ensures r.0 == s.(currentRequest := r.0.currentRequest, isLoading := true, minted := r.0.minted)
    ensures r.1.chatId == chatId
    ensures r.1.payload == BuildBackendPayload(userText, actionKey, s.webSearchEnabled, history)
  {
    var token := s.minted;
    var payload := BuildBackendPayload(userText, actionKey, s.webSearchEnabled, history);
    (s.(currentRequest := Some(token), isLoading := true, minted := s.minted + 1), Request(token, chatId, payload))
  }

  /**
    The second half of `runAssistant`: a result whose token is no longer
    current changes nothing at all (on success and on error alike);
    otherwise its entry is appended to the request's thread, if that thread
    still exists, and the token and the loading flag are cleared.
   */
  function Resolve(s: AppState, req: Request, outcome: Outcome, messageId: string, now: int): (r: AppState)
    ensures s.currentRequest != Some(req.token) ==> r == s
    ensures s.currentRequest == Some(req.token) ==>
              r.currentRequest.None? && !r.isLoading
              && r == s.(threads := r.threads, currentRequest := None, isLoading := false)
    ensures !HasId(s.threads, req.chatId) ==> r.threads == s.threads
  {
    if s.currentRequest != Some(req.token) then s
    else
      var m := ReplyMessage(outcome, messageId, now);
      s.(threads := Upsert(s.threads, req.chatId, AppendReply(m, now)), currentRequest := None, isLoading := false)
  }

  /** `handleStop`: forget the current token and drop the loading flag; nothing is aborted. */
  function Stop(s: AppState): (r: AppState)
    ensures r.currentRequest.None? && !r.isLoading
    ensures r == s.(currentRequest := None, isLoading := false)
  {
    s.(currentRequest := None, isLoading := false)
  }

  /** `createChat`: a new empty thread at the front, selected, draft mode left. */
  function CreateChat(s: AppState, id: string, text: string, now: int): (r: AppState)
    ensures r.threads == [NewThread(id, text, now)] + s.threads
    ensures r.activeChatId == Some(id) && !r.isDraftThread
  {
    s.(threads := [NewThread(id, text, now)] + s.threads, activeChatId := Some(id), isDraftThread := false)
  }

  /**
    The thread a send writes to (`activeChat?.id || createChat(normalized)`):
    the active thread, or a new one created under `newChatId`. Either way the
    thread exists afterwards and draft mode is over.
   */
  function SendTarget(s: AppState, normalized: string, now: int, newChatId: string): (r: (AppState, string))
    ensures HasId(r.0.threads, r.1) && !r.0.isDraftThread
    ensures ActiveChat(s).Some? ==> r == (s, ActiveChat(s).value.id)
    ensures ActiveChat(s).None? ==> r == (CreateChat(s, newChatId, normalized, now), newChatId)
  {
    match ActiveChat(s)
    case Some(t) => (s, t.id)
    case None =>
      var s1 := CreateChat(s, newChatId, normalized, now);
      assert s1.threads[0] in s1.threads;
      (s1, newChatId)
  }

  /**
    Whether the history of a send holds anything when the request is built.
    The updater can have run by then only when it went to a thread that
    already existed: a send that creates its thread follows `createChat`'s
    updates, so React defers it. Even for an existing thread React may defer
    it (for instance after a suggestion click's `setDraft` changed the
    draft), and `updaterRan` says whether it did not.
   */
  predicate HistoryFilled(s: AppState, updaterRan: bool) {
    updaterRan && ActiveChat(s).Some?
  }

  /**
    `handleSend`: blank text, or text sent while loading, is ignored.
    Otherwise the message goes to the active thread (a new thread is created
    first when there is none), the selected action is consumed, and a request
    is issued.

    The request's history is the local `history`, which only `upsertChat`'s
    updater fills in; the request is built right after `upsertChat` returns.
    Whether React has run that updater by then is React's choice, and
    `updaterRan` records it. See `HistoryFilled` for when the history is
    non-empty.
   */
  function Send(s: AppState, text: string, messageId: string, now: int, newChatId: string,
                updaterRan: bool): (r: (AppState, Option<Request>))
    ensures Trim(text) == [] || s.isLoading ==> r == (s, None)
    ensures Trim(text) != [] && !s.isLoading ==>
              r.1.Some? && r.1.value.token == s.minted && r.0.currentRequest == Some(s.minted)
              && r.0.isLoading && r.0.selectedAction.None? && r.0.minted == s.minted + 1
    ensures Trim(text) != [] && !s.isLoading ==>
              (r.1.value.payload.messages != [] <==> HistoryFilled(s, updaterRan))
    ensures Trim(text) != [] && !s.isLoading && r.1.value.payload.messages != [] ==>
              ActiveChat(s).Some?
  {
    var normalized := Trim(text);
    if normalized == [] || s.isLoading then (s, None)
    else
      var (s1, chatId) := SendTarget(s, normalized, now, newChatId);
      var actionKey := InferActionKey(normalized, s.selectedAction);
      var turn := Message(messageId, User, normalized, None, now);
      var history := if HistoryFilled(s, updaterRan) then ActiveChat(s).value.messages + [turn] else [];
      var s2 := s1.(threads := Upsert(s1.threads, chatId, RecordUserTurn(turn, now)), selectedAction := None);
      var (s3, req) := RunAssistant(s2, chatId, normalized, actionKey, history);
      (s3, Some(req))
  }

  /** `handleDeleteThread`: the thread goes, and so does the selection if it named it. */
  function Delete(s: AppState, chatId: string): (r: AppState)
    ensures !HasId(r.threads, chatId)
    ensures forall x :: x != chatId ==> (HasId(r.threads, x) <==> HasId(s.threads, x))
    ensures r.activeChatId == (if s.activeChatId == Some(chatId) then None else s.activeChatId)
    ensures r == s.(threads := r.threads, activeChatId := r.activeChatId)
  {
    RemoveThreadIds(s.threads, chatId);
    s.(threads := RemoveThread(s.threads, chatId),
       activeChatId := if s.activeChatId == Some(chatId) then None else s.activeChatId)
  }

  /** The sidebar's `onSelectChat`: leave draft mode and select the thread. */
  function Select(s: AppState, chatId: string): (r: AppState)
    ensures r.activeChatId == Some(chatId) && !r.isDraftThread
    ensures r == s.(activeChatId := Some(chatId), isDraftThread := false)
  {
    s.(isDraftThread := false, activeChatId := Some(chatId))
  }

  /** `handleCreateNewThread`: enter draft mode, only when the guard allows it. */
  function RequestNewThread(s: AppState): (r: AppState)
    ensures !CanCreateNewThread(s) ==> r == s
    ensures CanCreateNewThread(s) ==> r.isDraftThread && r.activeChatId.None? && r.selectedAction.None?
    ensures r.threads == s.threads && r.currentRequest == s.currentRequest && r.isLoading == s.isLoading
  {
    if !CanCreateNewThread(s) then s
    else s.(isDraftThread := true, activeChatId := None, selectedAction := None)
  }

  /** The index of the first message with this id (`findIndex`). */
  function MessageIndex(ms: seq<Message>, id: string): (r: Option<nat>)
    ensures r.Some? ==> r.value < |ms| && ms[r.value].id == id
    ensures r.Some? ==> forall j :: 0 <= j < r.value ==> ms[j].id != id
    ensures r.None? ==> forall j :: 0 <= j < |ms| ==> ms[j].id != id
  {
    IndexWhere(ms, (m: Message) => m.id == id, 0)
  }

  /**
    A backward scan for a role: the index of the last message with `role`
    before index `end` (`handleRegenerate` looks for the user's turn, the
    chat view for the latest answer).
   */
  function LastIndexOfRole(ms: seq<Message>, role: Role, end: nat): (r: Option<nat>)
    requires end <= |ms|
    ensures r.Some? ==> r.value < end && ms[r.value].role == role
    ensures r.Some? ==> forall j :: r.value < j < end ==> ms[j].role != role
    ensures r.None? ==> forall j :: 0 <= j < end ==> ms[j].role != role
  {
    if end == 0 then None
    else if ms[end - 1].role == role then Some(end - 1)
    else LastIndexOfRole(ms, role, end - 1)
  }

  /** The text of the last user message before index `end`, or "" when there is none. */
  function LastUserText(ms: seq<Message>, end: nat): (text: string)
    requires end <= |ms|
    ensures (forall j :: 0 <= j < end ==> ms[j].role != User) ==> text == ""
    ensures (exists j :: 0 <= j < end && ms[j].role == User) ==>
              exists j :: 0 <= j < end && ms[j].role == User && ms[j].content == text
                          && forall k :: j < k < end ==> ms[k].role != User
  {
    match LastIndexOfRole(ms, User, end)
    case Some(j) => ms[j].content
    case None => ""
  }

  /**
    `handleRegenerate`: a no-op without an active thread, while loading,
    for an id the active thread lacks, or when no non-empty user message
    precedes it. Otherwise the message is dropped from the thread and the
    last preceding user text is asked again with the history before it.
   */
  function Regenerate(s: AppState, messageId: string, now: int): (r: (AppState, Option<Request>))
    ensures r.1.Some? <==>
              && ActiveChat(s).Some? && !s.isLoading
              && MessageIndex(ActiveChat(s).value.messages, messageId).Some?
              && LastUserText(ActiveChat(s).value.messages, MessageIndex(ActiveChat(s).value.messages, messageId).value) != ""
    ensures r.1.None? ==> r.0 == s
    ensures r.1.Some? ==> r.1.value.token == s.minted && r.0.currentRequest == Some(s.minted) && r.0.isLoading
  {
    match ActiveChat(s)
    case None => (s, None)
    case Some(chat) =>
      if s.isLoading then (s, None)
      else
        match MessageIndex(chat.messages, messageId)
        case None => (s, None)
        case Some(k) =>
          var lastUserText := LastUserText(chat.messages, k);
          if lastUserText == "" then (s, None)
          else
            var s1 := s.(threads := Upsert(s.threads, chat.id, DropMessage(messageId, now)));
            var (s2, req) := RunAssistant(s1, chat.id, lastUserText, InferActionKey(lastUserText, None),
                                          chat.messages[..k]);
            (s2, Some(req))
  }

  /**
    The user and network events the state manager reacts to. A send comes
    from the input bar or from a suggestion click (`handleSuggestionSend`).
   */
  datatype Event =
    | SendText(text: string, messageId: string, now: int, newChatId: string, updaterRan: bool)
    | ResolveRequest(request: Request, outcome: Outcome, messageId: string, now: int)
    | StopRequest
    | DeleteThread(chatId: string)
    | SelectThread(chatId: string)
    | NewThreadRequested
    | RegenerateAnswer(messageId: string, now: int)
    | ActionChosen(key: string)
    | ActionCleared
    | WebToggled

  /** The selection effect run after an event, passing on the request the event issued. */
  function Settle(r: (AppState, Option<Request>)): (AppState, Option<Request>) {
    (Reconcile(r.0), r.1)
  }

  /** One event followed by the selection effect; also returns the request it issued, if any. */
  function Step(s: AppState, e: Event): (r: (AppState, Option<Request>))
    ensures Settled(r.0)
  {
    match e
    case SendText(text, messageId, now, newChatId, updaterRan) =>
      Settle(Send(s, text, messageId, now, newChatId, updaterRan))
    case ResolveRequest(req, outcome, messageId, now) => Settle((Resolve(s, req, outcome, messageId, now), None))
    case StopRequest => Settle((Stop(s), None))
    case DeleteThread(chatId) => Settle((Delete(s, chatId), None))
    case SelectThread(chatId) => Settle((Select(s, chatId), None))
    case NewThreadRequested => Settle((RequestNewThread(s), None))
    case RegenerateAnswer(messageId, now) => Settle(Regenerate(s, messageId, now))
    case ActionChosen(key) =>
      Settle((s.(selectedAction := if s.selectedAction == Some(key) then None else Some(key)), None))
    case ActionCleared => Settle((s.(selectedAction := None), None))
    case WebToggled => Settle((s.(webSearchEnabled := !s.webSearchEnabled), None))
  }

  /** The state after a sequence of events. */
  function Run(s: AppState, es: seq<Event>): AppState
    decreases |es|
  {
    if |es| == 0 then s else Run(Step(s, es[0]).0, es[1..])
  }
}

=== FILE: dates.dfy ===
/**
  Calendar dates as the server handles them: proleptic Gregorian dates with
  four-digit years, their day numbers (`date.toordinal()`), their ISO form
  (`date.isoformat()`), and the lenient `YYYY-MM-DD` reading of
  `_parse_iso_date`, which follows `datetime.strptime(text, "%Y-%m-%d")`.
 */
module Dates {
  import opened Wrappers
  import opened Text
  import opened Seqs

  datatype Date = Date(year: int, month: int, day: int)

  predicate IsLeap(y: int) {
    y % 4 == 0 && (y % 100 != 0 || y % 400 == 0)
  }

  function DaysInMonth(y: int, m: int): int {
    if m == 2 then (if IsLeap(y) then 29 else 28)
    else if m == 4 || m == 6 || m == 9 || m == 11 then 30
    else 31
  }

  function DaysInYear(y: int): int {
    if IsLeap(y) then 366 else 365
  }

  /** A date `datetime.date` accepts: years 1 to 9999 and a day the month has. */
  predicate ValidDate(d: Date) {
    1 <= d.year <= 9999 && 1 <= d.month <= 12 && 1 <= d.day <= DaysInMonth(d.year, d.month)
  }

  /** Days in the years before `y`. */
  function DaysBeforeYear(y: int): int
    requires y >= 1
  {
    var x := y - 1;
    365 * x + x / 4 - x / 100 + x / 400
  }

  /** Days in the months of year `y` before month `m` (13 gives the whole year). */
  function DaysBeforeMonth(y: int, m: int): int
    requires 1 <= m <= 13
  {
    var common := match m
      case 1 => 0 case 2 => 31 case 3 => 59 case 4 => 90 case 5 => 120 case 6 => 151
      case 7 => 181 case 8 => 212 case 9 => 243 case 10 => 273 case 11 => 304 case 12 => 334
      case _ => 365;
    if m > 2 && IsLeap(y) then common + 1 else common
  }

  /** `date.toordinal()`: 0001-01-01 is day 1. */
  function Ordinal(d: Date): int
    requires ValidDate(d)
  {
    DaysBeforeYear(d.year) + DaysBeforeMonth(d.year, d.month) + d.day
  }

  /** Calendar order. */
  predicate Before(a: Date, b: Date) {
    a.year < b.year
    || (a.year == b.year && a.month < b.month)
    || (a.year == b.year && a.month == b.month && a.day < b.day)
  }

  lemma MonthSteps(y: int, m: int)
    requires 1 <= m <= 12
    ensures DaysBeforeMonth(y, m) + DaysInMonth(y, m) == DaysBeforeMonth(y, m + 1)
  {
  }

  lemma {:induction false} MonthsIncrease(y: int, m1: int, m2: int)
    requires 1 <= m1 < m2 <= 13
    ensures DaysBeforeMonth(y, m1) + DaysInMonth(y, m1) <= DaysBeforeMonth(y, m2)
    decreases m2 - m1
  {
    MonthSteps(y, m1);
    if m1 + 1 < m2 {
      MonthsIncrease(y, m1 + 1, m2);
    }
  }

  lemma YearStep(y: int)
    requires y >= 1
    ensures DaysBeforeYear(y + 1) == DaysBeforeYear(y) + DaysInYear(y)
  {
    QuarterStep(y);
    CenturyStep(y);
    QuadricentennialStep(y);
    LeapDivisors(y);
  }

  /** Counting multiples of 4 (leap-year candidates) up to `y`. */
  lemma QuarterStep(y: int)
    requires y >= 1
    ensures y / 4 == (y - 1) / 4 + (if y % 4 == 0 then 1 else 0)
  {
  }

  /** Counting multiples of 100 (century years) up to `y`. */
  lemma CenturyStep(y: int)
    requires y >= 1
    ensures y / 100 == (y - 1) / 100 + (if y % 100 == 0 then 1 else 0)
  {
  }

  /** Counting multiples of 400 (leap centuries) up to `y`. */
  lemma QuadricentennialStep(y: int)
    requires y >= 1
    ensures y / 400 == (y - 1) / 400 + (if y % 400 == 0 then 1 else 0)
  {
  }

  /** Every multiple of 400 is a century year, and every century year a multiple of 4. */
  lemma LeapDivisors(y: int)
    ensures y % 400 == 0 ==> y % 100 == 0
    ensures y % 100 == 0 ==> y % 4 == 0
  {
  }

  lemma {:induction false} YearsIncrease(y1: int, y2: int)
    requires 1 <= y1 < y2
    ensures DaysBeforeYear(y1) + DaysInYear(y1) <= DaysBeforeYear(y2)
    decreases y2 - y1
  {
    YearStep(y1);
    if y1 + 1 < y2 {
      YearsIncrease(y1 + 1, y2);
    }
  }

  /** Day numbers follow the calendar: a date before another has a smaller number. */
  lemma OrdinalIncreasing(a: Date, b: Date)
    requires ValidDate(a) && ValidDate(b) && Before(a, b)
    ensures Ordinal(a) < Ordinal(b)
  {
    if a.year < b.year {
      MonthsIncrease(a.year, a.month, 13);
      YearsIncrease(a.year, b.year);
    } else if a.month < b.month {
      MonthsIncrease(a.year, a.month, b.month);
    }
  }

  /** Distinct dates have distinct day numbers, ordered as the dates are. */
  lemma OrdinalOrder(a: Date, b: Date)
    requires ValidDate(a) && ValidDate(b)
    ensures Ordinal(a) < Ordinal(b) <==> Before(a, b)
    ensures Ordinal(a) == Ordinal(b) <==> a == b
  {
    if Before(a, b) {
      OrdinalIncreasing(a, b);
    } else if Before(b, a) {
      OrdinalIncreasing(b, a);
    }
  }

  predicate IsDigit(c: char) {
    '0' <= c <= '9'
  }

  function DigitValue(c: char): int {
    c as int - '0' as int
  }

  function DigitChar(n: int): char
    requires 0 <= n <= 9
  {
    ('0' as int + n) as char
  }

  /** Zero-padded decimal of `n` in `width` digits. */
  function Padded(n: nat, width: nat): (r: string)
    ensures |r| == width
    ensures forall i :: 0 <= i < |r| ==> IsDigit(r[i])
  {
    if width == 0 then [] else Padded(n / 10, width - 1) + [DigitChar(n % 10)]
  }

  /** The value of a run of ASCII digits. */
  function DigitsValue(s: string): int
    requires forall i :: 0 <= i < |s| ==> IsDigit(s[i])
  {
    if |s| == 0 then 0 else 10 * DigitsValue(s[..|s| - 1]) + DigitValue(s[|s| - 1])
  }

  /** Reading a zero-padded numeral gives the number back. */
  lemma {:induction false} PaddedValue(n: nat, width: nat)
    requires n < Pow10(width)
    ensures DigitsValue(Padded(n, width)) == n
  {
    if width > 0 {
      var p := Padded(n, width);
      assert p[..|p| - 1] == Padded(n / 10, width - 1);
      PaddedValue(n / 10, width - 1);
    }
  }

  function Pow10(k: nat): nat {
    if k == 0 then 1 else 10 * Pow10(k - 1)
  }

  /** `date.isoformat()`: `YYYY-MM-DD`. */
  function FormatIso(d: Date): (r: string)
    requires ValidDate(d)
    ensures |r| == 10 && r[4] == '-' && r[7] == '-'
  {
    Padded(d.year, 4) + "-" + Padded(d.month, 2) + "-" + Padded(d.day, 2)
  }

  /**
    The `%m` field followed by the literal `-`: the regular expression tries
    `1[0-2]`, then `0[1-9]`, then `[1-9]`, backtracking whenever the `-`
    does not follow. Gives the month and the position of the `-`.
   */
  function MonthField(t: string, i: nat): (r: Option<(int, nat)>)
    ensures r.Some? ==> 1 <= r.value.0 <= 12 && i < r.value.1 < |t| && t[r.value.1] == '-'
  {
    if i + 2 < |t| && t[i + 2] == '-'
       && ((t[i] == '1' && '0' <= t[i + 1] <= '2') || (t[i] == '0' && '1' <= t[i + 1] <= '9')) then
      Some((10 * DigitValue(t[i]) + DigitValue(t[i + 1]), i + 2))
    else if i + 1 < |t| && t[i + 1] == '-' && '1' <= t[i] <= '9' then
      Some((DigitValue(t[i]), i + 1))
    else None
  }

  /**
    The `%d` field, last in the format: the first of `3[01]`, `[12]\d`,
    `0[1-9]`, `[1-9]` and ` [1-9]` that matches at `i`. Gives the day and the
    position after it.
   */
  function DayField(t: string, i: nat): (r: Option<(int, nat)>)
    ensures r.Some? ==> 1 <= r.value.0 <= 31 && i < r.value.1 <= |t|
  {
    if i + 1 < |t| && t[i] == '3' && '0' <= t[i + 1] <= '1' then
      Some((30 + DigitValue(t[i + 1]), i + 2))
    else if i + 1 < |t| && '1' <= t[i] <= '2' && IsDigit(t[i + 1]) then
      Some((10 * DigitValue(t[i]) + DigitValue(t[i + 1]), i + 2))
    else if i + 1 < |t| && t[i] == '0' && '1' <= t[i + 1] <= '9' then
      Some((DigitValue(t[i + 1]), i + 2))
    else if i < |t| && '1' <= t[i] <= '9' then
      Some((DigitValue(t[i]), i + 1))
    else if i + 1 < |t| && t[i] == ' ' && '1' <= t[i + 1] <= '9' then
      Some((DigitValue(t[i + 1]), i + 2))
    else None
  }

  /**
    `datetime.strptime(t, "%Y-%m-%d").date()`: four digits, `-`, a month
    field, `-`, a day field, nothing after it, and a date that exists;
    anything else is the `ValueError` the caller turns into `None`.
   */
  function ParseYmd(t: string): (r: Option<Date>)
    ensures r.Some? ==> ValidDate(r.value)
  {
    if |t| < 5 || !IsDigit(t[0]) || !IsDigit(t[1]) || !IsDigit(t[2]) || !IsDigit(t[3]) || t[4] != '-' then
      None
    else
      var year := DigitsValue(t[..4]);
      match MonthField(t, 5)
      case None => None
      case Some((month, dash)) =>
        match DayField(t, dash + 1)
        case None => None
        case Some((day, end)) =>
          if end == |t| && 1 <= year && day <= DaysInMonth(year, month) then
            assert 0 <= year <= 9999 by {
              DigitsBound(t[..4]);
            }
            Some(Date(year, month, day))
          else None
  }

  lemma {:induction false} DigitsBound(s: string)
    requires forall i :: 0 <= i < |s| ==> IsDigit(s[i])
    ensures 0 <= DigitsValue(s) < Pow10(|s|)
  {
    if |s| > 0 {
      DigitsBound(s[..|s| - 1]);
    }
  }

  /**
    `_parse_iso_date`: a missing or empty value, or one that is blank once
    stripped, gives no date; otherwise only the first ten characters of the
    stripped text are read.
   */
  function ParseIsoDate(value: Option<string>): (r: Option<Date>)
    ensures value.None? || value == Some("") ==> r.None?
    ensures value.Some? && Strip(value.value) == [] ==> r.None?
    ensures r.Some? ==> ValidDate(r.value)
  {
    match value
    case None => None
    case Some(v) =>
      if v == "" then None
      else
        var text := Strip(v);
        if text == "" then None else ParseYmd(FirstN(text, 10))
  }

  /**
    Only the first ten characters of the stripped text matter: two values
    that agree there read as the same date (or both as none).
   */
  lemma FirstTenCharactersDecide(a: string, b: string)
    requires Strip(a) != [] && Strip(b) != []
    requires FirstN(Strip(a), 10) == FirstN(Strip(b), 10)
    ensures ParseIsoDate(Some(a)) == ParseIsoDate(Some(b))
  {
    assert a != [] && b != [];
  }

  lemma TwoDigits(n: int)
    requires 0 <= n < 100
    ensures Padded(n, 2) == [DigitChar(n / 10), DigitChar(n % 10)]
  {
    var q := n / 10;
    assert q < 10 && q / 10 == 0 && q % 10 == q;
    assert Padded(q, 1) == Padded(q / 10, 0) + [DigitChar(q % 10)];
  }

  lemma MonthOfPadded(t: string, i: nat, m: int)
    requires 1 <= m <= 12 && i + 2 < |t|
    requires t[i] == DigitChar(m / 10) && t[i + 1] == DigitChar(m % 10) && t[i + 2] == '-'
    ensures MonthField(t, i) == Some((m, i + 2))
  {
  }

  lemma DayOfPadded(t: string, i: nat, d: int)
    requires 1 <= d <= 31 && i + 2 == |t|
    requires t[i] == DigitChar(d / 10) && t[i + 1] == DigitChar(d % 10)
    ensures DayField(t, i) == Some((d, i + 2))
  {
  }

  /** The ISO form of a date reads back as that date. */
  lemma ParseFormatted(d: Date)
    requires ValidDate(d)
    ensures ParseYmd(FormatIso(d)) == Some(d)
  {
    var t := FormatIso(d);
    var y := Padded(d.year, 4);
    assert t[..4] == y;
    PaddedValue(d.year, 4);
    TwoDigits(d.month);
    TwoDigits(d.day);
    MonthOfPadded(t, 5, d.month);
    DayOfPadded(t, 8, d.day);
  }

  /**
    A published value that starts with an ISO date is read as that date,
    whatever follows it (a time, a zone, spaces): only the first ten
    characters count.
   */
  lemma ParseIsoPrefix(d: Date, tail: string)
    requires ValidDate(d)
    ensures ParseIsoDate(Some(FormatIso(d) + tail)) == Some(d)
  {
    var p := FormatIso(d);
    assert IsDigit(p[0]) && IsDigit(p[9]);
    TrimKeepsSolidPrefix(IsPySpace, p, tail);
    var text := Strip(p + tail);
    assert FirstN(text, 10) == p;
    ParseFormatted(d);
  }
}

=== FILE: entities.dfy ===
/**
  The browser's data model: a thread is an ordered message log with a title
  and two timestamps (milliseconds, as `Date.now()` returns them).
 */
module Entities {
  import opened Wrappers

  datatype Role = User | Assistant

  /** A citation attached to an answer (the fields the browser keeps from the server's `sources`). */
  datatype Source = Source(title: Option<string>, url: Option<string>)

  /**
    `sources` is `None` on the error entries the browser writes, which carry no
    `sources` field at all.
   */
  datatype Message = Message(id: string, role: Role, content: string, sources: Option<seq<Source>>, createdAt: int)

  datatype Thread = Thread(id: string, title: string, createdAt: int, updatedAt: int, messages: seq<Message>)
}

=== FILE: history.dfy ===
/**
  The history cleaning the server does before calling the language model
  (`_to_history_messages`): entries with a role other than "user" or
  "assistant", or with no text once stripped, are dropped, the rest are
  stripped, and only the last ten are kept.
 */
module History {
  import opened Wrappers
  import opened Text
  import opened Seqs

  /** One history entry as received: its `role` and `content` may be missing. */
  datatype RawMessage = RawMessage(role: Option<string>, content: Option<string>)

  /** One cleaned entry handed to the model. */
  datatype HistoryMessage = HistoryMessage(role: string, content: string)

  /** How many cleaned entries reach the model. */
  const MaxHistory := 10

  predicate IsChatRole(role: Option<string>) {
    role == Some("user") || role == Some("assistant")
  }

  /** The cleaning of one entry: `None` when it is skipped. */
  function CleanEntry(m: RawMessage): (r: Option<HistoryMessage>)
    ensures r.Some? <==> IsChatRole(m.role) && StrippedOr(m.content, "") != ""
    ensures r.Some? ==> Some(r.value.role) == m.role && r.value.content == StrippedOr(m.content, "")
  {
    var content := StrippedOr(m.content, "");
    if !IsChatRole(m.role) || content == "" then None
    else Some(HistoryMessage(m.role.value, content))
  }

  /** The `cleaned` list: every entry that survives, stripped, in order. */
  function Cleaned(history: seq<RawMessage>): seq<HistoryMessage> {
    FilterMap(history, CleanEntry)
  }

  /**
    `_to_history_messages`: the last ten entries of `cleaned`
    (`cleaned[-10:]`), all of them when there are ten or fewer.
   */
  method ToHistoryMessages(history: seq<RawMessage>) returns (r: seq<HistoryMessage>)
    ensures |r| <= MaxHistory && |r| <= |Cleaned(history)|
    ensures r == Cleaned(history)[|Cleaned(history)| - |r|..]
    ensures |Cleaned(history)| <= MaxHistory ==> r == Cleaned(history)
    ensures |Cleaned(history)| > MaxHistory ==> |r| == MaxHistory
    ensures (forall i :: 0 <= i < |history| ==> CleanEntry(history[i]).Some?) && |history| <= MaxHistory ==>
              |r| == |history| && forall i :: 0 <= i < |history| ==> CleanEntry(history[i]) == Some(r[i])
  {
    var cleaned: seq<HistoryMessage> := [];
    for i := 0 to |history|
      invariant cleaned == FilterMap(history[..i], CleanEntry)
    {
      assert history[..i + 1][..i] == history[..i];
      var content := StrippedOr(history[i].content, "");
      if IsChatRole(history[i].role) && content != "" {
        cleaned := cleaned + [HistoryMessage(history[i].role.value, content)];
      }
    }
    assert history[..|history|] == history;
    r := LastN(cleaned, MaxHistory);
    if (forall i :: 0 <= i < |history| ==> CleanEntry(history[i]).Some?) && |history| <= MaxHistory {
      ShortCleanHistoryKept(history);
    }
  }

  /**
    Every cleaned entry comes from an input entry with the same role, a chat
    role, and carries that entry's content stripped, which is non-empty and
    already stripped; the cleaned entries keep the input order.
   */
  lemma {:induction false} CleanedEntriesWellFormed(history: seq<RawMessage>)
    ensures forall k :: 0 <= k < |Cleaned(history)| ==>
              var e := Cleaned(history)[k];
              (e.role == "user" || e.role == "assistant") && e.content != "" && Strip(e.content) == e.content
    ensures var idx := KeptIndices(history, CleanEntry);
            StrictlyIncreasing(idx) && |idx| == |Cleaned(history)|
            && forall k :: 0 <= k < |idx| ==>
                 idx[k] < |history| && Some(Cleaned(history)[k].role) == history[idx[k]].role
                 && Cleaned(history)[k].content == StrippedOr(history[idx[k]].content, "")
  {
    var c := Cleaned(history);
    var idx := KeptIndices(history, CleanEntry);
    forall k | 0 <= k < |c|
      ensures (c[k].role == "user" || c[k].role == "assistant") && c[k].content != "" && Strip(c[k].content) == c[k].content
    {
      var m := history[idx[k]];
      assert CleanEntry(m) == Some(c[k]);
      assert m.content.Some? && m.content.value != "";
      TrimIdempotent(IsPySpace, m.content.value);
    }
  }

  /**
    Entries whose role and content survive cleaning are all kept, when there
    are at most ten: the model receives every one of them, stripped, in
    their order, and the last-ten cut takes nothing away.
   */
  lemma ShortCleanHistoryKept(history: seq<RawMessage>)
    requires forall i :: 0 <= i < |history| ==> CleanEntry(history[i]).Some?
    requires |history| <= MaxHistory
    ensures |Cleaned(history)| == |history|
    ensures forall i :: 0 <= i < |history| ==> CleanEntry(history[i]) == Some(Cleaned(history)[i])
    ensures LastN(Cleaned(history), MaxHistory) == Cleaned(history)
  {
    FilterMapAll(history, CleanEntry);
  }
}

=== FILE: intent.dfy ===
/**
  The intent resolver of the browser: which of the eight actions a message
  asks for, which instruction prefix that action puts in front of the text,
  and which request mode follows from the action and the web-search toggle.
 */
module Intent {
  import opened Wrappers
  import opened Text
  import opened Entities
  import opened Protocol

  datatype Action = Action(key: string, caption: string)

  /** The action catalog, in the order the text-based inference tries it. */
  const Actions: seq<Action> := [
    Action("research", "Research"),
    Action("compare", "Compare"),
    Action("latest", "Latest"),
    Action("summarize", "Summarize"),
    Action("explain", "Explain"),
    Action("brainstorm", "Brainstorm"),
    Action("validate", "Validate"),
    Action("plan", "Plan")
  ]

  /** The instruction-prefix table; `research`, `latest` and unknown keys have no entry. */
  function IntentPrefixOf(key: string): Option<string> {
    match key
    case "compare" => Some("Compare key options with clear pros, cons, and tradeoffs:")
    case "summarize" => Some("Summarize this clearly and concisely:")
    case "explain" => Some("Explain this in simple terms with practical examples:")
    case "brainstorm" => Some("Brainstorm diverse, creative ideas for:")
    case "validate" => Some("Validate this and identify risks, assumptions, and improvements:")
    case "plan" => Some("Create a step-by-step plan with milestones for:")
    case _ => None
  }

  /** The text as the inference sees it: lower-cased, then trimmed. */
  function MatchText(text: string): string {
    Trim(Lower(text))
  }

  /** Whether the action's lower-cased caption starts the (lower-cased, trimmed) text. */
  predicate LabelMatches(a: Action, lowered: string) {
    IsPrefix(Lower(a.caption), lowered)
  }

  /** `ACTIONS.find(...)`: the first catalog index at or after `from` whose caption starts the text. */
  function FirstLabelMatch(catalog: seq<Action>, lowered: string, from: nat): (r: Option<nat>)
    requires from <= |catalog|
    decreases |catalog| - from
    ensures r.Some? ==> from <= r.value < |catalog| && LabelMatches(catalog[r.value], lowered)
    ensures r.Some? ==> forall j :: from <= j < r.value ==> !LabelMatches(catalog[j], lowered)
    ensures r.None? ==> forall j :: from <= j < |catalog| ==> !LabelMatches(catalog[j], lowered)
  {
    if from == |catalog| then None
    else if LabelMatches(catalog[from], lowered) then Some(from)
    else FirstLabelMatch(catalog, lowered, from + 1)
  }

  /**
    `inferActionKey`: an explicitly selected (non-empty) action wins;
    otherwise the key of the first action whose label starts the text, or
    none when no label does.
   */
  function InferActionKey(text: string, selected: Option<string>): (r: Option<string>)
    ensures selected.Some? && selected.value != "" ==> r == selected
    ensures (selected.None? || selected.value == "") ==>
              (r.None? <==> forall i :: 0 <= i < |Actions| ==> !LabelMatches(Actions[i], MatchText(text)))
    ensures (selected.None? || selected.value == "") && r.Some? ==>
              exists i :: 0 <= i < |Actions| && LabelMatches(Actions[i], MatchText(text)) && r.value == Actions[i].key
                          && forall j :: 0 <= j < i ==> !LabelMatches(Actions[j], MatchText(text))
  {
    if selected.Some? && selected.value != "" then selected
    else
      match FirstLabelMatch(Actions, MatchText(text), 0)
      case Some(i) => Some(Actions[i].key)
      case None => None
  }

  /** The instruction prefix of an action, if the action has one. */
  function IntentPrefix(actionKey: Option<string>): Option<string> {
    if actionKey.Some? then IntentPrefixOf(actionKey.value) else None
  }

  /** Whether the action by itself asks for web search. */
  predicate WantsWeb(actionKey: Option<string>) {
    actionKey == Some("research") || actionKey == Some("latest")
  }

  function ToTurns(history: seq<Message>): (r: seq<Turn>)
    ensures |r| == |history|
    ensures forall i :: 0 <= i < |history| ==> r[i] == Turn(history[i].role, history[i].content)
  {
    seq(|history|, i requires 0 <= i < |history| => Turn(history[i].role, history[i].content))
  }

  /**
    `buildBackendPayload`: the trimmed text, behind the action's prefix when
    it has one; the history reduced to role and content, in order; the web
    flag as given; and the mode it and the action imply.
   */
  function BuildBackendPayload(message: string, actionKey: Option<string>, webSearchEnabled: bool,
                               history: seq<Message>): (p: Payload)
    ensures IntentPrefix(actionKey).Some? ==> p.question == IntentPrefix(actionKey).value + " " + Trim(message)
    ensures IntentPrefix(actionKey).None? ==> p.question == Trim(message)
    ensures |p.question| >= |Trim(message)| && p.question[|p.question| - |Trim(message)|..] == Trim(message)
    ensures p.useWeb == webSearchEnabled
    ensures !webSearchEnabled ==> p.mode == Chat
    ensures webSearchEnabled ==> (p.mode == Web <==> WantsWeb(actionKey)) && p.mode != Chat
    ensures |p.messages| == |history|
    ensures forall i :: 0 <= i < |history| ==>
              p.messages[i].role == history[i].role && p.messages[i].content == history[i].content
  {
    var normalized := Trim(message);
    var question := match IntentPrefix(actionKey)
                    case Some(prefix) => prefix + " " + normalized
                    case None => normalized;
    var mode := if webSearchEnabled then (if WantsWeb(actionKey) then Web else Auto) else Chat;
    Payload(question, ToTurns(history), mode, webSearchEnabled)
  }

  /**
    The two tables agree: an action of the catalog carries an instruction
    prefix exactly when it does not ask for the web by itself.
   */
  lemma PrefixedActionsAreTheNonWebOnes()
    ensures forall i :: 0 <= i < |Actions| ==>
              (IntentPrefix(Some(Actions[i].key)).Some? <==> !WantsWeb(Some(Actions[i].key)))
  {
  }

  /** A message starting with "Compare", whatever follows, is a compare request. */
  lemma CompareIsInferredFromText(tail: string)
    ensures InferActionKey("Compare" + tail, None) == Some("compare")
  {
    ComparePrefixSurvives(tail);
    FirstMatchIsCompare(MatchText("Compare" + tail));
    assert Actions[1].key == "compare";
  }

  /** Lower-casing and trimming leave "compare" at the front of such a message. */
  lemma ComparePrefixSurvives(tail: string)
    ensures IsPrefix(Lower("Compare"), MatchText("Compare" + tail))
  {
    var p := Lower("Compare");
    assert p[0] == 'c' && p[|p| - 1] == 'e';
    LowerAppend("Compare", tail);
    TrimKeepsSolidPrefix(IsJsSpace, p, Lower(tail));
  }

  /** Text starting with "compare" (and so not with "research") picks the second action. */
  lemma FirstMatchIsCompare(lowered: string)
    requires IsPrefix(Lower("Compare"), lowered)
    ensures FirstLabelMatch(Actions, lowered, 0) == Some(1)
  {
    assert Lower("Compare")[0] == 'c' && Lower("Research")[0] == 'r';
    assert !LabelMatches(Actions[0], lowered);
    assert LabelMatches(Actions[1], lowered);
  }
}

=== FILE: lifecycle.dfy ===
/**
  What the conversation state manager guarantees across events: the state
  invariant every event keeps, stale results never applied, deleted threads
  never recreated, and the effect of sending, resolving and regenerating on
  the thread concerned.
 */
module Lifecycle {
  import opened Wrappers
  import opened Text
  import opened Entities
  import opened Protocol
  import opened Intent
  import opened ThreadStore
  import opened Conversation

  /** Everything but the selection rule. */
  ghost predicate Core(s: AppState) {
    && SortedByRecency(s.threads)
    && DistinctIds(s.threads)
    && (s.isLoading <==> s.currentRequest.Some?)
    && (s.currentRequest.Some? ==> s.currentRequest.value < s.minted)
    && (s.isDraftThread ==> s.activeChatId.None?)
  }

  /**
    The state invariant: threads most recent first with distinct ids, the
    loading flag up exactly while a token is current, the current token
    already minted, draft mode and a selection never together, and the
    selection settled.
   */
  ghost predicate Inv(s: AppState) {
    Core(s) && Settled(s)
  }

  /** A send that may create a thread is given an id no thread has (`crypto.randomUUID()`). */
  ghost predicate FreshChatId(s: AppState, e: Event) {
    e.SendText? ==> !HasId(s.threads, e.newChatId)
  }

  lemma InitialInv()
    ensures Inv(Initial)
  {
  }

  lemma ReconcileKeepsCore(s: AppState)
    requires Core(s)
    ensures Inv(Reconcile(s))
  {
  }

  /**
    A send that goes through appends the user's trimmed text to its thread
    (the active one, or the new one it creates) and titles a thread that had
    no messages after that text.
   */
  lemma SendRecordsTurn(s: AppState, text: string, messageId: string, now: int, newChatId: string,
                        updaterRan: bool, before: Thread, turn: Message)
    requires Inv(s) && !HasId(s.threads, newChatId) && Trim(text) != [] && !s.isLoading
    requires ActiveChat(s).Some? ==> before == ActiveChat(s).value
    requires ActiveChat(s).None? ==> before == NewThread(newChatId, Trim(text), now)
    requires turn == Message(messageId, User, Trim(text), None, now)
    ensures Send(s, text, messageId, now, newChatId, updaterRan).1.value.chatId == before.id
    ensures FindThread(Send(s, text, messageId, now, newChatId, updaterRan).0.threads, before.id)
            == Some(before.(title := FirstTurnTitle(before, Trim(text)), updatedAt := now,
                            messages := before.messages + [turn]))
  {
    var normalized := Trim(text);
    var s1 := SendTarget(s, normalized, now, newChatId).0;
    assert Send(s, text, messageId, now, newChatId, updaterRan).0.threads
           == Upsert(s1.threads, before.id, RecordUserTurn(turn, now));
    SendTargetKeepsStore(s, normalized, now, newChatId);
    assert before in s1.threads;
    FindThreadOfMember(s1.threads, before);
    UpsertFindEdited(s1.threads, before.id, RecordUserTurn(turn, now));
  }

  /** A send leaves every thread but its own as it was. */
  lemma SendLeavesOthers(s: AppState, text: string, messageId: string, now: int, newChatId: string,
                         updaterRan: bool, other: string)
    requires Inv(s) && !HasId(s.threads, newChatId)
    requires Trim(text) != [] && !s.isLoading ==> other != SendTarget(s, Trim(text), now, newChatId).1
    ensures FindThread(Send(s, text, messageId, now, newChatId, updaterRan).0.threads, other)
            == FindThread(s.threads, other)
  {
    var normalized := Trim(text);
    if normalized != [] && !s.isLoading {
      var (s1, chatId) := SendTarget(s, normalized, now, newChatId);
      var turn := Message(messageId, User, normalized, None, now);
      assert Send(s, text, messageId, now, newChatId, updaterRan).0.threads
             == Upsert(s1.threads, chatId, RecordUserTurn(turn, now));
      SendTargetKeepsStore(s, normalized, now, newChatId);
      UpsertFind(s1.threads, chatId, RecordUserTurn(turn, now), other);
      TargetFindsOthers(s, normalized, now, newChatId, other);
    }
  }

  /**
    The request of a send that goes through is built from the trimmed text,
    the action inferred from it and the selected one, and the web toggle.
    Its history is the thread's messages including the new one when the
    updater had run by then, which needs a thread that already existed;
    otherwise it carries no history.
   */
  lemma SendAsks(s: AppState, text: string, messageId: string, now: int, newChatId: string,
                 updaterRan: bool, turn: Message)
    requires Trim(text) != [] && !s.isLoading
    requires turn == Message(messageId, User, Trim(text), None, now)
    ensures Send(s, text, messageId, now, newChatId, updaterRan).1.value.payload
            == BuildBackendPayload(Trim(text), InferActionKey(Trim(text), s.selectedAction), s.webSearchEnabled,
                                   if HistoryFilled(s, updaterRan)
                                   then ActiveChat(s).value.messages + [turn] else [])
  {
  }

  /** Creating the target thread does not change what any other id finds. */
  lemma TargetFindsOthers(s: AppState, normalized: string, now: int, newChatId: string, other: string)
    requires DistinctIds(s.threads) && !HasId(s.threads, newChatId) && other != SendTarget(s, normalized, now, newChatId).1
    ensures FindThread(SendTarget(s, normalized, now, newChatId).0.threads, other) == FindThread(s.threads, other)
  {
    var s1 := SendTarget(s, normalized, now, newChatId).0;
    SendTargetKeepsStore(s, normalized, now, newChatId);
    match FindThread(s.threads, other)
    case Some(y) =>
      assert y in s1.threads;
      FindThreadOfMember(s1.threads, y);
    case None =>
      assert !HasId(s1.threads, other);
  }

  /** The target of a send keeps the ids of the thread list distinct and names a thread. */
  lemma SendTargetKeepsStore(s: AppState, normalized: string, now: int, newChatId: string)
    requires DistinctIds(s.threads) && !HasId(s.threads, newChatId)
    ensures var s1 := SendTarget(s, normalized, now, newChatId).0;
            DistinctIds(s1.threads) && s1.activeChatId.Some?
  {
    if ActiveChat(s).None? {
      var s1 := CreateChat(s, newChatId, normalized, now);
      assert s1.threads == [NewThread(newChatId, normalized, now)] + s.threads;
      assert forall j :: 0 <= j < |s.threads| ==> s.threads[j] in s.threads;
    } else {
      assert s.activeChatId.Some?;
    }
  }

  lemma SendKeepsCore(s: AppState, text: string, messageId: string, now: int, newChatId: string,
                      updaterRan: bool)
    requires Inv(s) && !HasId(s.threads, newChatId)
    ensures Core(Send(s, text, messageId, now, newChatId, updaterRan).0)
  {
    var normalized := Trim(text);
    if normalized != [] && !s.isLoading {
      var (s1, chatId) := SendTarget(s, normalized, now, newChatId);
      SendTargetKeepsStore(s, normalized, now, newChatId);
      var turn := Message(messageId, User, normalized, None, now);
      UpsertKeepsDistinct(s1.threads, chatId, RecordUserTurn(turn, now));
      }
  }

  lemma RegenerateKeepsCore(s: AppState, messageId: string, now: int)
    requires Inv(s)
    ensures Core(Regenerate(s, messageId, now).0)
  {
    var r := Regenerate(s, messageId, now);
    if r.1.Some? {
      var chat := ActiveChat(s).value;
      UpsertKeepsDistinct(s.threads, chat.id, DropMessage(messageId, now));
    }
  }

  /** Every event keeps the invariant. */
  lemma StepKeepsInv(s: AppState, e: Event)
    requires Inv(s) && FreshChatId(s, e)
    ensures Inv(Step(s, e).0)
  {
    match e
    case SendText(text, messageId, now, newChatId, updaterRan) =>
      SendKeepsCore(s, text, messageId, now, newChatId, updaterRan);
      ReconcileKeepsCore(Send(s, text, messageId, now, newChatId, updaterRan).0);
    case ResolveRequest(req, outcome, messageId, now) =>
      var m := ReplyMessage(outcome, messageId, now);
      UpsertKeepsDistinct(s.threads, req.chatId, AppendReply(m, now));
      ReconcileKeepsCore(Resolve(s, req, outcome, messageId, now));
    case StopRequest =>
      ReconcileKeepsCore(Stop(s));
    case DeleteThread(chatId) =>
      RemoveThreadKeepsInvariants(s.threads, chatId);
      ReconcileKeepsCore(Delete(s, chatId));
    case SelectThread(chatId) =>
      ReconcileKeepsCore(Select(s, chatId));
    case NewThreadRequested =>
      ReconcileKeepsCore(RequestNewThread(s));
    case RegenerateAnswer(messageId, now) =>
      RegenerateKeepsCore(s, messageId, now);
      ReconcileKeepsCore(Regenerate(s, messageId, now).0);
    case ActionChosen(key) =>
    case ActionCleared =>
    case WebToggled =>
  }

  /** Events that respect id freshness, in every state the trace passes through. */
  ghost predicate FreshAlong(s: AppState, es: seq<Event>)
    decreases |es|
  {
    |es| == 0 || (FreshChatId(s, es[0]) && FreshAlong(Step(s, es[0]).0, es[1..]))
  }

  /** The invariant holds after any trace of events that respects id freshness. */
  lemma {:induction false} RunKeepsInv(s: AppState, es: seq<Event>)
    requires Inv(s) && FreshAlong(s, es)
    ensures Inv(Run(s, es))
    decreases |es|
  {
    if |es| > 0 {
      StepKeepsInv(s, es[0]);
      RunKeepsInv(Step(s, es[0]).0, es[1..]);
    }
  }

  /**
    Tokens are never reused: a step issues at most one request, tagged with
    the next token, and a token that is not current never becomes current
    again.
   */
  lemma StepKeepsStale(s: AppState, e: Event, t: nat)
    requires t < s.minted && s.currentRequest != Some(t)
    ensures Step(s, e).0.minted >= s.minted
    ensures Step(s, e).0.currentRequest != Some(t)
  {
    match e
    case SendText(text, messageId, now, newChatId, updaterRan) =>
      assert Step(s, e).0 == Reconcile(Send(s, text, messageId, now, newChatId, updaterRan).0);
    case RegenerateAnswer(messageId, now) =>
      assert Step(s, e).0 == Reconcile(Regenerate(s, messageId, now).0);
    case _ =>
  }

  lemma StepIssuesFreshToken(s: AppState, e: Event)
    ensures Step(s, e).1.Some? ==>
              Step(s, e).1.value.token == s.minted && Step(s, e).0.minted == s.minted + 1
              && Step(s, e).0.currentRequest == Some(s.minted)
    ensures Step(s, e).1.None? ==> Step(s, e).0.minted == s.minted
  {
  }

  /**
    A result whose token has been superseded or stopped is never applied:
    whatever events follow, resolving it leaves the state exactly as it is.
   */
  lemma {:induction false} StaleResultNeverApplied(s: AppState, es: seq<Event>, req: Request,
                                                  outcome: Outcome, messageId: string, now: int)
    requires Settled(s)
    requires req.token < s.minted && s.currentRequest != Some(req.token)
    ensures Step(Run(s, es), ResolveRequest(req, outcome, messageId, now)) == (Run(s, es), None)
    decreases |es|
  {
    if |es| == 0 {
      assert Run(s, es) == s;
    } else {
      StepKeepsStale(s, es[0], req.token);
      StaleResultNeverApplied(Step(s, es[0]).0, es[1..], req, outcome, messageId, now);
    }
  }

  /** A result is applied at most once: resolving the same request again changes nothing. */
  lemma ResultAppliedAtMostOnce(s: AppState, req: Request, o1: Outcome, o2: Outcome, es: seq<Event>,
                                id1: string, id2: string, t1: int, t2: int)
    requires req.token < s.minted
    ensures var s1 := Step(s, ResolveRequest(req, o1, id1, t1)).0;
            Step(Run(s1, es), ResolveRequest(req, o2, id2, t2)) == (Run(s1, es), None)
  {
    var s1 := Step(s, ResolveRequest(req, o1, id1, t1)).0;
    StaleResultNeverApplied(s1, es, req, o2, id2, t2);
  }

  /**
    Two requests in a row: once a newer request has been issued, the older
    one's result is dropped whenever it arrives.
   */
  lemma SupersededResultDropped(s: AppState, first: Request, e: Event, es: seq<Event>,
                                outcome: Outcome, messageId: string, now: int)
    requires Settled(s) && first.token < s.minted
    requires Step(s, e).1.Some?
    ensures var s1 := Step(s, e).0;
            Step(Run(s1, es), ResolveRequest(first, outcome, messageId, now)) == (Run(s1, es), None)
  {
    StaleResultNeverApplied(Step(s, e).0, es, first, outcome, messageId, now);
  }

  /** After a stop, the pending result is never applied. */
  lemma StoppedResultDropped(s: AppState, req: Request, es: seq<Event>,
                             outcome: Outcome, messageId: string, now: int)
    requires req.token < s.minted
    ensures var s1 := Step(s, StopRequest).0;
            Step(Run(s1, es), ResolveRequest(req, outcome, messageId, now)) == (Run(s1, es), None)
  {
    StaleResultNeverApplied(Step(s, StopRequest).0, es, req, outcome, messageId, now);
  }

  /** Whether an event may create a thread with this id. */
  predicate MayCreate(e: Event, id: string) {
    e.SendText? && e.newChatId == id
  }

  lemma StepNeverRecreates(s: AppState, e: Event, id: string)
    requires !HasId(s.threads, id) && !MayCreate(e, id)
    ensures !HasId(Step(s, e).0.threads, id)
  {
    match e
    case DeleteThread(chatId) =>
      RemoveThreadIds(s.threads, chatId);
    case _ =>
  }

  /**
    A deleted (or never created) thread does not come back: only a send
    that creates a thread under that very id could bring it, and every
    late result for it is dropped.
   */
  lemma {:induction false} DeletedThreadStaysGone(s: AppState, es: seq<Event>, id: string)
    requires !HasId(s.threads, id)
    requires forall k :: 0 <= k < |es| ==> !MayCreate(es[k], id)
    ensures !HasId(Run(s, es).threads, id)
    decreases |es|
  {
    if |es| > 0 {
      StepNeverRecreates(s, es[0], id);
      DeletedThreadStaysGone(Step(s, es[0]).0, es[1..], id);
    }
  }

  /** Deleting a thread removes it for good, whatever request was pending for it. */
  lemma DeleteDuringRequest(s: AppState, chatId: string, es: seq<Event>)
    requires forall k :: 0 <= k < |es| ==> !MayCreate(es[k], chatId)
    ensures !HasId(Run(Step(s, DeleteThread(chatId)).0, es).threads, chatId)
  {
    var s1 := Step(s, DeleteThread(chatId)).0;
    DeleteRemoves(s, chatId);
    DeletedThreadStaysGone(s1, es, chatId);
  }

  lemma DeleteRemoves(s: AppState, chatId: string)
    ensures !HasId(Step(s, DeleteThread(chatId)).0.threads, chatId)
  {
    assert Step(s, DeleteThread(chatId)).0.threads == Delete(s, chatId).threads;
  }

  /**
    Deleting the selected thread clears the selection, and the selection
    effect that follows then picks the most recent remaining thread, if any.
   */
  lemma DeletingActiveSelectsMostRecent(s: AppState, chatId: string)
    requires !s.isDraftThread && s.activeChatId == Some(chatId)
    ensures var rest := RemoveThread(s.threads, chatId);
            Step(s, DeleteThread(chatId)).0.activeChatId == if |rest| == 0 then None else Some(rest[0].id)
  {
    RemoveThreadIds(s.threads, chatId);
    var d := Delete(s, chatId);
    assert d.activeChatId.None? && !d.isDraftThread;
  }

  /** A result for a thread that no longer exists mutates no thread. */
  lemma ResultForMissingThread(s: AppState, req: Request, outcome: Outcome, messageId: string, now: int)
    requires !HasId(s.threads, req.chatId)
    ensures Step(s, ResolveRequest(req, outcome, messageId, now)).0.threads == s.threads
  {
  }

  /**
    A current result is appended to its thread, after the messages already
    there; the other threads are as they were and the list stays in order.
   */
  lemma ResolveAppendsReply(s: AppState, req: Request, outcome: Outcome, messageId: string, now: int,
                            other: string)
    requires Inv(s) && s.currentRequest == Some(req.token) && HasId(s.threads, req.chatId)
    requires other != req.chatId
    ensures var r := Step(s, ResolveRequest(req, outcome, messageId, now)).0;
            var before := FindThread(s.threads, req.chatId).value;
            && FindThread(r.threads, req.chatId).Some?
            && FindThread(r.threads, req.chatId).value.messages
                 == before.messages + [ReplyMessage(outcome, messageId, now)]
            && FindThread(r.threads, req.chatId).value.updatedAt == now
            && FindThread(r.threads, other) == FindThread(s.threads, other)
            && SortedByRecency(r.threads)
            && !r.isLoading && r.currentRequest.None?
  {
    var m := ReplyMessage(outcome, messageId, now);
    UpsertFind(s.threads, req.chatId, AppendReply(m, now), other);
  }

  /**
    A regenerate that goes through drops the answer from the active thread
    (exactly that message, when its id is unique there), leaves every other
    thread alone, and asks again with the last user text before the answer
    and the messages before the answer as history.
   */
  lemma RegenerateReasks(s: AppState, messageId: string, now: int, other: string, chat: Thread, k: nat)
    requires Inv(s) && Regenerate(s, messageId, now).1.Some?
    requires ActiveChat(s) == Some(chat) && MessageIndex(chat.messages, messageId) == Some(k)
    requires other != chat.id
    ensures Regenerate(s, messageId, now).1.value.chatId == chat.id
    ensures Regenerate(s, messageId, now).1.value.payload
            == BuildBackendPayload(LastUserText(chat.messages, k), InferActionKey(LastUserText(chat.messages, k), None),
                                   s.webSearchEnabled, chat.messages[..k])
    ensures FindThread(Regenerate(s, messageId, now).0.threads, chat.id).Some?
    ensures FindThread(Regenerate(s, messageId, now).0.threads, chat.id).value.messages
            == WithoutMessage(chat.messages, messageId)
    ensures IdOnlyAt(chat.messages, messageId, k) ==>
              FindThread(Regenerate(s, messageId, now).0.threads, chat.id).value.messages
              == chat.messages[..k] + chat.messages[k + 1..]
    ensures FindThread(Regenerate(s, messageId, now).0.threads, other) == FindThread(s.threads, other)
  {
    RegenerateWrites(s, messageId, now);
    DropFromThread(s.threads, chat, messageId, now, k, other);
  }

  /** What a regenerate that goes through writes and asks. */
  lemma RegenerateWrites(s: AppState, messageId: string, now: int)
    requires Regenerate(s, messageId, now).1.Some?
    ensures var chat := ActiveChat(s).value;
            var k := MessageIndex(chat.messages, messageId).value;
            var text := LastUserText(chat.messages, k);
            var (r, req) := Regenerate(s, messageId, now);
            && r.threads == Upsert(s.threads, chat.id, DropMessage(messageId, now))
            && req.value.chatId == chat.id
            && req.value.payload == BuildBackendPayload(text, InferActionKey(text, None), s.webSearchEnabled, chat.messages[..k])
  {
  }

  /** Dropping a message from one thread of the store. */
  lemma DropFromThread(ts: seq<Thread>, chat: Thread, messageId: string, now: int, k: nat, other: string)
    requires DistinctIds(ts) && chat in ts && other != chat.id
    requires k < |chat.messages| && chat.messages[k].id == messageId
    ensures var r := Upsert(ts, chat.id, DropMessage(messageId, now));
            && FindThread(r, chat.id).Some?
            && FindThread(r, chat.id).value.messages == WithoutMessage(chat.messages, messageId)
            && (IdOnlyAt(chat.messages, messageId, k) ==>
                  FindThread(r, chat.id).value.messages == chat.messages[..k] + chat.messages[k + 1..])
            && FindThread(r, other) == FindThread(ts, other)
  {
    FindThreadOfMember(ts, chat);
    assert chat.id == chat.id && HasId(ts, chat.id);
    UpsertFind(ts, chat.id, DropMessage(messageId, now), other);
    if IdOnlyAt(chat.messages, messageId, k) {
      WithoutUniqueMessage(chat.messages, messageId, k);
    }
  }
}

=== FILE: protocol.dfy ===
/** What the browser posts to the server's `/ask` endpoint. */
module Protocol {
  import opened Entities

  /** The request `mode`: `"auto"`, `"chat"` or `"web"`. */
  datatype Mode = Auto | Chat | Web

  /** One `{role, content}` pair of the rolling conversation history. */
  datatype Turn = Turn(role: Role, content: string)

  /** The body of the request; `useWeb` is the wire field `use_web`. */
  datatype Payload = Payload(question: string, messages: seq<Turn>, mode: Mode, useWeb: bool)
}

=== FILE: routing.dfy ===
/**
  The server's `/ask` routing: whether a question looks like it wants fresh
  web results, how fresh they must be, which search hits are fresh enough,
  the live answer written straight from fresh hits, and the decision tree of
  the handler (reject, search or not, answer from live hits or hand over to
  the language model).
 */
module Routing {
  import opened Wrappers
  import opened Text
  import opened Seqs
  import opened Dates
  import opened Entities
  import opened Protocol
  import opened Intent

  /** The words that mark a question as being about current events. */
  const WebTriggers: seq<string> := ["latest", "today", "news", "current", "recent", "headline", "breaking"]

  /** Whether any of `ts` occurs in `s` (`any(t in s for t in ts)`). */
  function ContainsAny(s: string, ts: seq<string>): (r: bool)
    ensures r <==> exists i :: 0 <= i < |ts| && Contains(s, ts[i])
  {
    if |ts| == 0 then false
    else Contains(s, ts[0]) || ContainsAny(s, ts[1..])
  }

  /** `_question_looks_web_focused`: a trigger word occurs in the lower-cased question. */
  function QuestionLooksWebFocused(question: string): (r: bool)
    ensures r <==> exists i :: 0 <= i < |WebTriggers| && Contains(Lower(question), WebTriggers[i])
  {
    ContainsAny(Lower(question), WebTriggers)
  }

  /**
    `_freshness_window_days`: how many days old a hit may be. "today" wins
    over everything, then "this week"/"weekly", then "this month"; two
    weeks otherwise.
   */
  function FreshnessWindowDays(question: string): (r: int)
    ensures r in {1, 8, 14, 35}
  {
    var q := Lower(question);
    if Contains(q, "today") then 1
    else if Contains(q, "this week") || Contains(q, "weekly") then 8
    else if Contains(q, "this month") then 35
    else 14
  }

  /** Which phrase of the lower-cased question decides each window. */
  lemma FreshnessWindowCases(question: string, r: int)
    requires r == FreshnessWindowDays(question)
    ensures r == 1 <==> Contains(Lower(question), "today")
    ensures r == 8 <==> !Contains(Lower(question), "today")
                        && (Contains(Lower(question), "this week") || Contains(Lower(question), "weekly"))
    ensures r == 35 <==> !Contains(Lower(question), "today") && !Contains(Lower(question), "this week")
                         && !Contains(Lower(question), "weekly") && Contains(Lower(question), "this month")
  {
  }

  /** Lower-casing is idempotent. */
  lemma LowerTwice(s: string)
    ensures Lower(Lower(s)) == Lower(s)
  {
    assert forall i :: 0 <= i < |s| ==> LowerChar(LowerChar(s[i])) == LowerChar(s[i]);
  }

  /**
    The two readings of a question agree: one that asks about "today" gets
    the one-day window and is always taken as web-focused.
   */
  lemma OneDayWindowIsWebFocused(question: string)
    requires FreshnessWindowDays(question) == 1
    ensures QuestionLooksWebFocused(question)
  {
    assert Contains(Lower(question), WebTriggers[1]);
  }

  /** Neither reading depends on letter case. */
  lemma ReadingsIgnoreCase(question: string)
    ensures QuestionLooksWebFocused(Lower(question)) == QuestionLooksWebFocused(question)
    ensures FreshnessWindowDays(Lower(question)) == FreshnessWindowDays(question)
  {
    LowerTwice(question);
  }

  /** A web search hit: every field is whatever the search returned, possibly nothing. */
  datatype Hit = Hit(title: Option<string>, url: Option<string>, snippet: Option<string>,
                     published: Option<string>, engine: Option<string>)

  /**
    A hit is fresh when its publication date reads as a date at most
    `window` days before the day numbered `today`, and not after it.
   */
  predicate IsFresh(h: Hit, window: int, today: int) {
    match ParseIsoDate(h.published)
    case None => false
    case Some(p) => 0 <= today - Ordinal(p) <= window
  }

  /**
    A hit whose date does not read is never fresh, and a wider window keeps
    every hit a narrower one keeps.
   */
  lemma FreshnessWidens(h: Hit, narrow: int, wide: int, today: int)
    requires narrow <= wide
    ensures ParseIsoDate(h.published).None? ==> !IsFresh(h, wide, today)
    ensures IsFresh(h, narrow, today) ==> IsFresh(h, wide, today)
  {
  }

  function KeepIfFresh(window: int, today: int, h: Hit): Option<Hit> {
    if IsFresh(h, window, today) then Some(h) else None
  }

  /** The reference result of `_filter_fresh_hits`: the fresh hits, in order. */
  function FreshHits(hits: seq<Hit>, question: string, today: Date): seq<Hit>
    requires ValidDate(today)
  {
    var window := FreshnessWindowDays(question);
    var t := Ordinal(today);
    FilterMap(hits, h => KeepIfFresh(window, t, h))
  }

  /**
    `_filter_fresh_hits`, with the current UTC date as `today`: keeps, in
    order, the hits whose date reads and is between zero and the question's
    window days old; every other hit is dropped.
   */
  method FilterFreshHits(hits: seq<Hit>, question: string, today: Date) returns (out: seq<Hit>)
    requires ValidDate(today)
    ensures out == FreshHits(hits, question, today)
    ensures forall k :: 0 <= k < |out| ==> IsFresh(out[k], FreshnessWindowDays(question), Ordinal(today))
    ensures forall i :: 0 <= i < |hits| && IsFresh(hits[i], FreshnessWindowDays(question), Ordinal(today)) ==>
                          hits[i] in out
  {
    var window := FreshnessWindowDays(question);
    var t := Ordinal(today);
    out := [];
    for i := 0 to |hits|
      invariant out == FilterMap(hits[..i], h => KeepIfFresh(window, t, h))
    {
      FreshStep(hits, i, window, t);
      if IsFresh(hits[i], window, t) {
        out := out + [hits[i]];
      }
    }
    assert hits[..|hits|] == hits;
    FreshHitsExactly(hits, question, today);
  }

  /** One more hit examined: it is appended exactly when it is fresh. */
  lemma FreshStep(hits: seq<Hit>, i: nat, window: int, t: int)
    requires i < |hits|
    ensures FilterMap(hits[..i + 1], h => KeepIfFresh(window, t, h))
            == FilterMap(hits[..i], h => KeepIfFresh(window, t, h))
               + (if IsFresh(hits[i], window, t) then [hits[i]] else [])
  {
    assert hits[..i + 1][..i] == hits[..i];
  }

  /** The reference filter keeps every fresh hit and nothing else. */
  lemma FreshHitsExactly(hits: seq<Hit>, question: string, today: Date)
    requires ValidDate(today)
    ensures forall k :: 0 <= k < |FreshHits(hits, question, today)| ==>
              IsFresh(FreshHits(hits, question, today)[k], FreshnessWindowDays(question), Ordinal(today))
    ensures forall i :: 0 <= i < |hits| && IsFresh(hits[i], FreshnessWindowDays(question), Ordinal(today)) ==>
                          hits[i] in FreshHits(hits, question, today)
  {
    var window := FreshnessWindowDays(question);
    var t := Ordinal(today);
    var out := FreshHits(hits, question, today);
    FilterMapComplete(hits, h => KeepIfFresh(window, t, h));
    FilterMapSound(hits, h => KeepIfFresh(window, t, h));
    forall k | 0 <= k < |out| ensures IsFresh(out[k], window, t) {
      var i :| 0 <= i < |hits| && KeepIfFresh(window, t, hits[i]) == Some(out[k]);
    }
  }

  /**
    The filter keeps an order-preserving subsequence of the hits: there are
    increasing positions in the input holding exactly the kept hits.
   */
  lemma FreshHitsInOrder(hits: seq<Hit>, question: string, today: Date)
    requires ValidDate(today)
    ensures exists idx: seq<nat> ::
              |idx| == |FreshHits(hits, question, today)| && StrictlyIncreasing(idx)
              && forall k :: 0 <= k < |idx| ==> idx[k] < |hits| && hits[idx[k]] == FreshHits(hits, question, today)[k]
  {
    var window := FreshnessWindowDays(question);
    var t := Ordinal(today);
    FilterIsSubsequence(hits, h => KeepIfFresh(window, t, h));
  }

  /**
    A hit dated after today, or one whose date is missing or does not read,
    is never fresh; a hit dated today always is.
   */
  lemma FreshnessByDate(h: Hit, window: int, today: Date)
    requires ValidDate(today) && window >= 0
    ensures ParseIsoDate(h.published).None? ==> !IsFresh(h, window, Ordinal(today))
    ensures ParseIsoDate(h.published).Some? && Before(today, ParseIsoDate(h.published).value) ==>
              !IsFresh(h, window, Ordinal(today))
    ensures ParseIsoDate(h.published) == Some(today) ==> IsFresh(h, window, Ordinal(today))
  {
    if ParseIsoDate(h.published).Some? {
      OrdinalOrder(today, ParseIsoDate(h.published).value);
    }
  }

  /** One numbered entry of the live answer. */
  datatype LiveEntry = LiveEntry(number: int, title: string, published: string, snippet: string, url: string)

  /** The most entries the live answer lists, and the longest snippet it quotes. */
  const MaxLiveEntries := 5
  const MaxSnippet := 220

  /**
    An entry for hit number `number`: the stripped title, "Untitled" when
    there is none; the publication text as given, "unknown" when there is
    none; the stripped snippet cut to 220 characters; the stripped url.
   */
  function LiveEntryOf(number: int, h: Hit): (e: LiveEntry)
    ensures e.number == number
    ensures |e.snippet| <= MaxSnippet
  {
    LiveEntry(number, StrippedOr(h.title, "Untitled"), OrDefault(h.published, "unknown"),
              FirstN(StrippedOr(h.snippet, ""), MaxSnippet), StrippedOr(h.url, ""))
  }

  /** Each field of the entry `e` made for hit `h` is read as `_build_live_answer` reads it. */
  lemma LiveEntryFields(number: int, h: Hit, e: LiveEntry)
    requires e == LiveEntryOf(number, h)
    ensures h.title.None? || h.title == Some("") ==> e.title == "Untitled"
    ensures h.title.Some? && h.title.value != "" ==> e.title == Strip(h.title.value)
    ensures h.published.None? || h.published == Some("") ==> e.published == "unknown"
    ensures h.published.Some? && h.published.value != "" ==> e.published == h.published.value
    ensures e.snippet == FirstN(StrippedOr(h.snippet, ""), MaxSnippet)
    ensures h.url.Some? && h.url.value != "" ==> e.url == Strip(h.url.value)
    ensures h.url.None? || h.url == Some("") ==> e.url == ""
  {
  }

  /**
    The fallback title is already stripped, so by `StrippedOrIsStripOfOr`
    each text field of an entry is the source's `(h.get(...) or fallback).strip()`.
   */
  lemma FallbackTitleIsStripped()
    ensures Strip("Untitled") == "Untitled"
  {
    var u := "Untitled";
    TrimSolid(IsPySpace, u);
  }

  /** `enumerate(hits[:5], start=1)`: the first five hits, numbered from one. */
  function LiveEntries(hits: seq<Hit>): (es: seq<LiveEntry>)
    ensures |es| == if |hits| < MaxLiveEntries then |hits| else MaxLiveEntries
    ensures forall k :: 0 <= k < |es| ==> es[k] == LiveEntryOf(k + 1, hits[k])
  {
    Enumerate(FirstN(hits, MaxLiveEntries), 1, LiveEntryOf)
  }

  /** Entries are numbered 1, 2, ... in hit order, at most five of them, snippets at most 220 long. */
  lemma LiveEntriesNumbered(hits: seq<Hit>)
    ensures |LiveEntries(hits)| <= MaxLiveEntries
    ensures forall k :: 0 <= k < |LiveEntries(hits)| ==>
              LiveEntries(hits)[k].number == k + 1 && |LiveEntries(hits)[k].snippet| <= MaxSnippet
  {
  }

  /** How the lines of an entry open: a digit for the numbered title line, indentation for the others. */
  predicate OpensEntryLine(line: string) {
    |line| > 0 && (line[0] == ' ' || '0' <= line[0] <= '9')
  }

  /** The lines written for one entry: the numbered title line, then the snippet and source when present. */
  function EntryLines(e: LiveEntry): (ls: seq<string>)
    requires 0 <= e.number <= 9
    ensures |ls| == 1 + (if e.snippet != "" then 1 else 0) + (if e.url != "" then 1 else 0)
    ensures ls[0] == [DigitChar(e.number)] + ". " + e.title + " (" + e.published + ")"
    ensures e.snippet != "" ==> ls[1] == "   " + e.snippet
    ensures e.url != "" ==> ls[|ls| - 1] == "   Source: " + e.url
    ensures forall k :: 0 <= k < |ls| ==> OpensEntryLine(ls[k])
  {
    [[DigitChar(e.number)] + ". " + e.title + " (" + e.published + ")"]
    + (if e.snippet != "" then ["   " + e.snippet] else [])
    + (if e.url != "" then ["   Source: " + e.url] else [])
  }

  /** The lines of the entries, entry after entry. */
  function EntriesLines(es: seq<LiveEntry>): (ls: seq<string>)
    requires forall k :: 0 <= k < |es| ==> 0 <= es[k].number <= 9
    ensures |es| <= |ls| <= 3 * |es|
    ensures forall k :: 0 <= k < |ls| ==> OpensEntryLine(ls[k])
  {
    if |es| == 0 then []
    else
      var init := EntriesLines(es[..|es| - 1]);
      var last := EntryLines(es[|es| - 1]);
      assert forall k :: |init| <= k < |init| + |last| ==> (init + last)[k] == last[k - |init|];
      init + last
  }

  predicate IsWordChar(c: char) {
    ('a' <= c <= 'z') || ('A' <= c <= 'Z') || ('0' <= c <= '9') || c == '_'
  }

  /**
    `re.search(r"\bsummary|summarize\b", question, re.IGNORECASE)`: the
    alternation binds loosest, so this is "summary" at the start of a word
    or "summarize" at the end of one.
   */
  predicate MentionsSummary(question: string) {
    var q := Lower(question);
    exists i :: 0 <= i <= |q| &&
      ((OccursAt(q, "summary", i) && (i == 0 || !IsWordChar(q[i - 1])))
       || (OccursAt(q, "summarize", i) && (i + 9 == |q| || !IsWordChar(q[i + 9]))))
  }

  /**
    What the pattern catches: "summary" opening the question or a word of
    it, and "summarize" closing it, in any case.
   */
  lemma SummaryMentions(question: string)
    ensures IsPrefix("summary", Lower(question)) ==> MentionsSummary(question)
    ensures |question| >= 9 && Lower(question)[|question| - 9..] == "summarize" ==> MentionsSummary(question)
  {
    var q := Lower(question);
    if IsPrefix("summary", q) {
      assert OccursAt(q, "summary", 0);
    }
    if |q| >= 9 && q[|q| - 9..] == "summarize" {
      assert OccursAt(q, "summarize", |q| - 9);
    }
  }

  const SummaryLine := "Summary:" + " These are the freshest available headlines from live web search."

  /** The header line of the live answer, dated `today`. */
  function LiveHeader(today: Date): (line: string)
    requires ValidDate(today)
    ensures IsPrefix("Live web results as of ", line) && line != SummaryLine
  {
    var line := "Live web results as of " + FormatIso(today) + " UTC:";
    assert line[0] == 'L' && SummaryLine[0] == 'S';
    line
  }

  /**
    The lines of `_build_live_answer`: a header dated today, the entry lines
    of at most five hits, and a closing summary line exactly when the
    question asks for a summary.
   */
  function LiveAnswerLines(question: string, hits: seq<Hit>, today: Date): (ls: seq<string>)
    requires ValidDate(today)
    ensures |ls| == 1 + |EntriesLines(LiveEntries(hits))| + (if MentionsSummary(question) then 1 else 0)
    ensures ls[0] == LiveHeader(today)
    ensures ls[1..|ls| - (if MentionsSummary(question) then 1 else 0)] == EntriesLines(LiveEntries(hits))
    ensures MentionsSummary(question) <==> ls[|ls| - 1] == SummaryLine
    ensures |ls| <= 1 + 3 * MaxLiveEntries + 1
  {
    var summary := MentionsSummary(question);
    var ls := [LiveHeader(today)] + EntriesLines(LiveEntries(hits)) + (if summary then [SummaryLine] else []);
    SummaryCloses(LiveHeader(today), EntriesLines(LiveEntries(hits)), summary, ls);
    ls
  }

  /**
    Header and entry lines never read as the summary line, so the last line
    is the summary line exactly when one was added.
   */
  lemma SummaryCloses(header: string, entries: seq<string>, summary: bool, ls: seq<string>)
    requires header != SummaryLine && forall k :: 0 <= k < |entries| ==> OpensEntryLine(entries[k])
    requires ls == [header] + entries + (if summary then [SummaryLine] else [])
    ensures ls[1..|ls| - (if summary then 1 else 0)] == entries
    ensures summary <==> ls[|ls| - 1] == SummaryLine
  {
    assert SummaryLine[0] == 'S' && !OpensEntryLine(SummaryLine);
    if !summary && |entries| > 0 {
      assert ls[|ls| - 1] == entries[|entries| - 1];
    }
  }

  /** `"\n".join(lines)`: the lines in order, the first one at the front. */
  function JoinLines(ls: seq<string>): (r: string)
    ensures |ls| > 0 ==> IsPrefix(ls[0], r)
    ensures |ls| == 0 ==> r == ""
  {
    if |ls| == 0 then ""
    else if |ls| == 1 then ls[0]
    else ls[0] + "\n" + JoinLines(ls[1..])
  }

  /** Joining two non-empty runs of lines puts one newline between their joins. */
  lemma {:induction false} JoinLinesAppend(a: seq<string>, b: seq<string>)
    requires |a| > 0 && |b| > 0
    ensures JoinLines(a + b) == JoinLines(a) + "\n" + JoinLines(b)
  {
    assert (a + b)[0] == a[0] && (a + b)[1..] == a[1..] + b;
    if |a| > 1 {
      JoinLinesAppend(a[1..], b);
    }
  }

  /** Joining lines that close with the summary line ends the text with a newline and that line. */
  lemma JoinClosing(body: seq<string>, summary: bool, ls: seq<string>)
    requires |body| > 0 && ls == body + (if summary then [SummaryLine] else [])
    ensures JoinLines(ls) == JoinLines(body) + (if summary then "\n" + SummaryLine else "")
  {
    if summary {
      JoinLinesAppend(body, [SummaryLine]);
    } else {
      assert ls == body;
    }
  }

  /**
    `_build_live_answer`: the text opens with the dated header, goes on with
    the entry lines, and closes with the summary line, after a newline,
    exactly when the question asks for a summary.
   */
  function BuildLiveAnswer(question: string, hits: seq<Hit>, today: Date): (r: string)
    requires ValidDate(today)
    ensures IsPrefix(LiveHeader(today), r)
    ensures r == JoinLines([LiveHeader(today)] + EntriesLines(LiveEntries(hits)))
                 + (if MentionsSummary(question) then "\n" + SummaryLine else "")
  {
    var summary := MentionsSummary(question);
    var body := [LiveHeader(today)] + EntriesLines(LiveEntries(hits));
    var ls := LiveAnswerLines(question, hits, today);
    JoinClosing(body, summary, ls);
    JoinLines(ls)
  }

  /** The `/ask` request body after validation: `top_k` is between 1 and 20. */
  datatype AskRequest = AskRequest(question: string, topK: int, mode: Mode, useWeb: bool, messages: seq<Turn>)

  /** What the handler decides before any search. */
  datatype AskPlan =
    | Rejected(status: int, detail: string)
    | Accepted(question: string, includeWeb: bool, freshnessRequired: bool, searchTopK: int)

  /**
    The start of `ask`: a question that strips to nothing is refused with
    status 400 before anything else; otherwise the web is consulted when the
    caller asks for it, when the mode is "web", or when the mode is "auto"
    and the question looks web-focused, and fresh results are demanded when
    the question looks web-focused. The search asks for at most eight hits.
   */
  function PlanAsk(req: AskRequest): (p: AskPlan)
    requires 1 <= req.topK <= 20
    ensures p.Rejected? <==> Strip(req.question) == ""
    ensures p.Rejected? ==> p.status == 400 && p.detail == "Question cannot be empty"
    ensures p.Accepted? ==> p.question == Strip(req.question) && p.question != ""
    ensures p.Accepted? ==>
              (p.includeWeb <==> req.useWeb || req.mode == Web || (req.mode == Auto && QuestionLooksWebFocused(p.question)))
    ensures p.Accepted? ==> (p.freshnessRequired <==> QuestionLooksWebFocused(p.question))
    ensures p.Accepted? ==> 1 <= p.searchTopK <= 8 && p.searchTopK <= req.topK
  {
    var question := Strip(req.question);
    if question == "" then Rejected(400, "Question cannot be empty")
    else
      var webFocused := QuestionLooksWebFocused(question);
      Accepted(question, req.useWeb || req.mode == Web || (req.mode == Auto && webFocused), webFocused,
               if req.topK < 8 then req.topK else 8)
  }

  /** In "chat" mode without the web flag the handler never searches, whatever the question says. */
  lemma ChatModeStaysOffline(req: AskRequest)
    requires 1 <= req.topK <= 20 && req.mode == Chat && !req.useWeb
    ensures PlanAsk(req).Accepted? ==> !PlanAsk(req).includeWeb
  {
  }

  /** In "auto" mode a question that needs fresh results is always searched. */
  lemma AutoModeSearchesWhenFreshnessNeeded(req: AskRequest)
    requires 1 <= req.topK <= 20 && req.mode == Auto
    ensures PlanAsk(req).Accepted? && PlanAsk(req).freshnessRequired ==> PlanAsk(req).includeWeb
  {
  }

  /** The browser's default `top_k` for `/ask`. */
  const BrowserTopK := 6

  /**
    Across the wire: for a payload the browser built, the server consults the
    web exactly when the browser's web toggle was on (as long as the
    question does not strip to nothing on the server).
   */
  lemma WebToggleDecidesSearch(message: string, actionKey: Option<string>, webSearchEnabled: bool,
                               history: seq<Message>)
    requires Strip(BuildBackendPayload(message, actionKey, webSearchEnabled, history).question) != ""
    ensures var p := BuildBackendPayload(message, actionKey, webSearchEnabled, history);
            var plan := PlanAsk(AskRequest(p.question, BrowserTopK, p.mode, p.useWeb, p.messages));
            plan.Accepted? && (plan.includeWeb <==> webSearchEnabled)
  {
    var p := BuildBackendPayload(message, actionKey, webSearchEnabled, history);
    PlanFollowsWebFlag(AskRequest(p.question, BrowserTopK, p.mode, p.useWeb, p.messages));
  }

  /**
    A request that either sets the web flag or is in "chat" mode is searched
    exactly when the flag is set.
   */
  lemma PlanFollowsWebFlag(req: AskRequest)
    requires 1 <= req.topK <= 20 && Strip(req.question) != ""
    requires req.useWeb || req.mode == Chat
    ensures PlanAsk(req).Accepted? && (PlanAsk(req).includeWeb <==> req.useWeb)
  {
  }

  /**
    The browser and the server disagree on whitespace: a message that is
    only a NEXT LINE character (U+0085) is not blank to `trim()`, so the
    browser sends it, but `strip()` removes it, so the server refuses it
    with status 400.
   */
  lemma NextLineOnlyMessageIsRefused(message: string)
    requires |message| == 1 && message[0] == '\U{85}'
    ensures Trim(message) == message
    ensures var p := BuildBackendPayload(message, None, false, []);
            PlanAsk(AskRequest(p.question, BrowserTopK, p.mode, p.useWeb, p.messages)) == Rejected(400, "Question cannot be empty")
  {
    TrimSolid(IsJsSpace, message);
    assert TrimStart(IsPySpace, message) == [];
    SentButRefused(message);
  }

  /** A message the browser finds non-blank but the server strips to nothing is refused. */
  lemma SentButRefused(message: string)
    requires Strip(Trim(message)) == []
    ensures var p := BuildBackendPayload(message, None, false, []);
            PlanAsk(AskRequest(p.question, BrowserTopK, p.mode, p.useWeb, p.messages)) == Rejected(400, "Question cannot be empty")
  {
  }

  /** A hit as reported back to the browser, its preview the raw snippet cut to 220 characters. */
  datatype SourceItem = SourceItem(title: Option<string>, url: Option<string>, published: Option<string>,
                                   engine: Option<string>, preview: string)

  function SourceOf(h: Hit): (s: SourceItem)
    ensures |s.preview| <= MaxSnippet
    ensures IsPrefix(s.preview, OrDefault(h.snippet, ""))
    ensures |s.preview| == if |OrDefault(h.snippet, "")| < MaxSnippet then |OrDefault(h.snippet, "")| else MaxSnippet
    ensures s.title == h.title && s.url == h.url && s.published == h.published && s.engine == h.engine
  {
    SourceItem(h.title, h.url, h.published, h.engine, FirstN(OrDefault(h.snippet, ""), MaxSnippet))
  }

  function SourcesOf(hits: seq<Hit>): (ss: seq<SourceItem>)
    ensures |ss| == |hits|
    ensures forall k :: 0 <= k < |hits| ==> ss[k] == SourceOf(hits[k])
  {
    seq(|hits|, k requires 0 <= k < |hits| => SourceOf(hits[k]))
  }

  /** Without the web, the search results play no part in the answer. */
  lemma OfflineIgnoresHits(p: AskPlan, a: seq<Hit>, b: seq<Hit>, today: Date)
    requires p.Accepted? && !p.includeWeb && ValidDate(today)
    ensures Route(p, a, today) == Route(p, b, today)
  {
  }

  /** The handler's answer, up to the text the language model writes. */
  datatype AskReply =
    | NoFreshResults(answer: string)
    | LiveReply(answer: string, sources: seq<SourceItem>)
    | ModelReply(intent: string, sources: seq<SourceItem>, grounded: bool)

  function NoFreshText(today: Date): string
    requires ValidDate(today)
  {
    "I could not fetch sufficiently recent live results right now (as of " + FormatIso(today) + " UTC). "
    + "Please retry in a moment."
  }

  /**
    The reply when fresh results are demanded, given the hits that survived
    the freshness filter: the fixed apology when none did, otherwise the live
    answer with the first five of them as sources.
   */
  function FreshReply(question: string, kept: seq<Hit>, today: Date): (r: AskReply)
    requires ValidDate(today)
    ensures r.NoFreshResults? <==> kept == []
    ensures r.LiveReply? <==> kept != []
    ensures r.LiveReply? ==>
              |r.sources| == |FirstN(kept, MaxLiveEntries)| <= MaxLiveEntries
              && forall k :: 0 <= k < |r.sources| ==> |r.sources[k].preview| <= MaxSnippet
    ensures r.NoFreshResults? ==> r.answer == NoFreshText(today)
    ensures r.LiveReply? ==> r.answer == BuildLiveAnswer(question, kept, today)
                             && r.sources == SourcesOf(FirstN(kept, MaxLiveEntries))
  {
    if kept == [] then NoFreshResults(NoFreshText(today))
    else LiveReply(BuildLiveAnswer(question, kept, today), SourcesOf(FirstN(kept, MaxLiveEntries)))
  }

  /**
    The rest of `ask`, given the hits the search returned (`webHits`, unused
    when the web is not consulted) and today's date. With fresh results
    demanded the hits are filtered: none left gives the fixed apology, some
    left give the live answer with at most five sources. Otherwise every
    hit becomes a source and grounds the model's answer.
   */
  function Route(p: AskPlan, webHits: seq<Hit>, today: Date): (r: AskReply)
    requires p.Accepted? && ValidDate(today)
    ensures r.NoFreshResults? <==> p.includeWeb && p.freshnessRequired && FreshHits(webHits, p.question, today) == []
    ensures r.LiveReply? <==> p.includeWeb && p.freshnessRequired && FreshHits(webHits, p.question, today) != []
    ensures r.LiveReply? ==>
              |r.sources| == |FirstN(FreshHits(webHits, p.question, today), MaxLiveEntries)| <= MaxLiveEntries
              && forall k :: 0 <= k < |r.sources| ==> |r.sources[k].preview| <= MaxSnippet
    ensures r.ModelReply? ==> (r.intent == "web" <==> p.includeWeb) && (r.intent == "chat" <==> !p.includeWeb)
    ensures r.ModelReply? && !p.includeWeb ==> r.sources == [] && !r.grounded
    ensures r.ModelReply? && p.includeWeb ==> |r.sources| == |webHits| && (r.grounded <==> webHits != [])
    ensures r.ModelReply? && p.includeWeb ==> r.sources == SourcesOf(webHits)
    ensures r.NoFreshResults? ==> r.answer == NoFreshText(today)
    ensures r.LiveReply? ==>
              r.answer == BuildLiveAnswer(p.question, FreshHits(webHits, p.question, today), today)
              && r.sources == SourcesOf(FirstN(FreshHits(webHits, p.question, today), MaxLiveEntries))
  {
    if !p.includeWeb then ModelReply("chat", [], false)
    else if p.freshnessRequired then FreshReply(p.question, FreshHits(webHits, p.question, today), today)
    else ModelReply("web", SourcesOf(webHits), |webHits| > 0)
  }
}

=== FILE: seqs.dfy ===
/**
  Sequence helpers shared by the server-side filters: a filter-and-map that
  keeps order, the indices it keeps, and Python's `xs[-n:]`.
 */
module Seqs {
  import opened Wrappers

  /**
    Walks `xs` in order and keeps `v` for every element `f` maps to
    `Some(v)`, dropping the others. Defined from the back so that it
    describes a loop appending one element at a time.
   */
  function FilterMap<T, U>(xs: seq<T>, f: T -> Option<U>): (r: seq<U>)
    ensures |r| <= |xs|
  {
    if |xs| == 0 then []
    else
      var init := FilterMap(xs[..|xs| - 1], f);
      match f(xs[|xs| - 1])
      case Some(v) => init + [v]
      case None => init
  }

  ghost predicate StrictlyIncreasing(idx: seq<nat>) {
    forall a, b :: 0 <= a < b < |idx| ==> idx[a] < idx[b]
  }

  /**
    The positions `FilterMap` keeps: increasing, each one mapped to the
    output element at the same place, and every position `f` accepts among
    them. So the output is the accepted elements, in their original order.
   */
  function KeptIndices<T, U>(xs: seq<T>, f: T -> Option<U>): (idx: seq<nat>)
    ensures |idx| == |FilterMap(xs, f)|
    ensures StrictlyIncreasing(idx)
    ensures forall k :: 0 <= k < |idx| ==> idx[k] < |xs| && f(xs[idx[k]]) == Some(FilterMap(xs, f)[k])
    ensures forall i :: 0 <= i < |xs| && f(xs[i]).Some? ==> i in idx
  {
    if |xs| == 0 then []
    else
      var init := xs[..|xs| - 1];
      var prev := KeptIndices(init, f);
      assert forall k :: 0 <= k < |prev| ==> xs[prev[k]] == init[prev[k]];
      match f(xs[|xs| - 1])
      case Some(_) => prev + [|xs| - 1]
      case None => prev
  }

  /** Whatever `f` makes of an element is in the output. */
  lemma {:induction false} FilterMapComplete<T, U>(xs: seq<T>, f: T -> Option<U>)
    ensures forall i :: 0 <= i < |xs| && f(xs[i]).Some? ==> f(xs[i]).value in FilterMap(xs, f)
  {
    if |xs| > 0 {
      var init := xs[..|xs| - 1];
      FilterMapComplete(init, f);
      assert forall i :: 0 <= i < |init| ==> init[i] == xs[i];
    }
  }

  /** Everything in the output is what `f` makes of some element. */
  lemma {:induction false} FilterMapSound<T, U>(xs: seq<T>, f: T -> Option<U>)
    ensures forall v :: v in FilterMap(xs, f) ==> exists i :: 0 <= i < |xs| && f(xs[i]) == Some(v)
  {
    if |xs| > 0 {
      var init := xs[..|xs| - 1];
      FilterMapSound(init, f);
      assert forall i :: 0 <= i < |init| ==> init[i] == xs[i];
    }
  }

  /** Filtering a concatenation filters each part. */
  lemma {:induction false} FilterMapAppend<T, U>(xs: seq<T>, ys: seq<T>, f: T -> Option<U>)
    ensures FilterMap(xs + ys, f) == FilterMap(xs, f) + FilterMap(ys, f)
    decreases |ys|
  {
    if |ys| > 0 {
      var init := ys[..|ys| - 1];
      assert (xs + ys)[..|xs + ys| - 1] == xs + init;
      assert (xs + ys)[|xs + ys| - 1] == ys[|ys| - 1];
      FilterMapAppend(xs, init, f);
    } else {
      assert xs + ys == xs;
    }
  }

  /** When `f` accepts every element, everything is kept. */
  lemma {:induction false} FilterMapAll<T, U>(xs: seq<T>, f: T -> Option<U>)
    requires forall i :: 0 <= i < |xs| ==> f(xs[i]).Some?
    ensures |FilterMap(xs, f)| == |xs|
    ensures forall i :: 0 <= i < |xs| ==> f(xs[i]) == Some(FilterMap(xs, f)[i])
  {
    if |xs| > 0 {
      var init := xs[..|xs| - 1];
      FilterMapAll(init, f);
      assert forall i :: 0 <= i < |init| ==> init[i] == xs[i];
    }
  }

  /**
    JavaScript's `findIndex`, starting at `from`: the first position at or
    after `from` whose element satisfies `p`, none when there is none.
   */
  function IndexWhere<T>(xs: seq<T>, p: T -> bool, from: nat): (r: Option<nat>)
    requires from <= |xs|
    decreases |xs| - from
    ensures r.Some? ==> from <= r.value < |xs| && p(xs[r.value])
    ensures r.Some? ==> forall j :: from <= j < r.value ==> !p(xs[j])
    ensures r.None? ==> forall j :: from <= j < |xs| ==> !p(xs[j])
  {
    if from == |xs| then None
    else if p(xs[from]) then Some(from)
    else IndexWhere(xs, p, from + 1)
  }

  /** Python's `xs[:n]` and JavaScript's `xs.slice(0, n)` for `n >= 0`: the first `n` elements, or all of them. */
  function FirstN<T>(xs: seq<T>, n: nat): (r: seq<T>)
    ensures |r| == if |xs| <= n then |xs| else n
    ensures r == xs[..|r|]
  {
    if |xs| <= n then xs else xs[..n]
  }

  /**
    A filter that only keeps or drops elements yields a subsequence of its
    input: the kept elements sit at increasing positions of `xs`.
   */
  lemma FilterIsSubsequence<T>(xs: seq<T>, f: T -> Option<T>)
    requires forall x :: f(x).Some? ==> f(x).value == x
    ensures exists idx: seq<nat> ::
              |idx| == |FilterMap(xs, f)| && StrictlyIncreasing(idx)
              && forall k :: 0 <= k < |idx| ==> idx[k] < |xs| && xs[idx[k]] == FilterMap(xs, f)[k]
  {
    var idx := KeptIndices(xs, f);
    assert forall k :: 0 <= k < |idx| ==> f(xs[idx[k]]) == Some(FilterMap(xs, f)[k]);
  }

  /** Python's `enumerate(xs, start=first)` mapped through `f`: element `k` is `f(first + k, xs[k])`. */
  function Enumerate<T, U>(xs: seq<T>, first: int, f: (int, T) -> U): (r: seq<U>)
    ensures |r| == |xs|
    ensures forall k :: 0 <= k < |r| ==> r[k] == f(first + k, xs[k])
  {
    if xs == [] then []
    else
      var rest := Enumerate(xs[1..], first + 1, f);
      assert forall k :: 1 <= k < |xs| ==> rest[k - 1] == f(first + k, xs[k]);
      [f(first, xs[0])] + rest
  }

  /** Python's `xs[-n:]` for `n > 0`: the last `n` elements, or all of them. */
  function LastN<T>(xs: seq<T>, n: nat): (r: seq<T>)
    ensures |r| == if |xs| <= n then |xs| else n
    ensures r == xs[|xs| - |r|..]
  {
    if |xs| <= n then xs else xs[|xs| - n..]
  }
}

=== FILE: text.dfy ===
/**
  String helpers shared by the browser code (JavaScript) and the server code
  (Python): trimming, ASCII lower-casing, and prefix and substring tests.
 */
module Text {
  import opened Wrappers

  /** Characters `String.prototype.trim` removes: ECMAScript WhiteSpace and LineTerminator. */
  predicate IsJsSpace(c: char) {
    var n := c as int;
    (0x09 <= n <= 0x0D) || n == 0x20 || n == 0xA0 || n == 0x1680 || (0x2000 <= n <= 0x200A)
    || n == 0x2028 || n == 0x2029 || n == 0x202F || n == 0x205F || n == 0x3000 || n == 0xFEFF
  }

  /** Characters Python's `str.strip()` removes (those for which `str.isspace()` holds). */
  predicate IsPySpace(c: char) {
    var n := c as int;
    (0x09 <= n <= 0x0D) || (0x1C <= n <= 0x20) || n == 0x85 || n == 0xA0 || n == 0x1680
    || (0x2000 <= n <= 0x200A) || n == 0x2028 || n == 0x2029 || n == 0x202F || n == 0x205F || n == 0x3000
  }

  /** Leading whitespace removed: a suffix of `s` that starts with a non-space. */
  function TrimStart(ws: char -> bool, s: string): (r: string)
    ensures |r| <= |s| && r == s[|s| - |r|..]
    ensures |r| > 0 ==> !ws(r[0])
    ensures forall i :: 0 <= i < |s| - |r| ==> ws(s[i])
  {
    if |s| > 0 && ws(s[0]) then TrimStart(ws, s[1..]) else s
  }

  /** Trailing whitespace removed: a prefix of `s` that ends with a non-space. */
  function TrimEnd(ws: char -> bool, s: string): (r: string)
    ensures |r| <= |s| && r == s[..|r|]
    ensures |r| > 0 ==> !ws(r[|r| - 1])
    ensures forall i :: |r| <= i < |s| ==> ws(s[i])
  {
    if |s| > 0 && ws(s[|s| - 1]) then TrimEnd(ws, s[..|s| - 1]) else s
  }

  /**
    `r` is `s` with exactly the `lo` characters before it and the characters
    after it cut away, all of which are whitespace.
   */
  ghost predicate CutFrom(ws: char -> bool, s: string, r: string, lo: int) {
    && 0 <= lo <= |s| - |r|
    && r == s[lo..lo + |r|]
    && (forall i :: 0 <= i < lo ==> ws(s[i]))
    && (forall i :: lo + |r| <= i < |s| ==> ws(s[i]))
  }

  /**
    Both ends trimmed: a contiguous slice of `s`, neither end of which is
    whitespace, with only whitespace cut away on either side.
   */
  function TrimBy(ws: char -> bool, s: string): (r: string)
    ensures |r| <= |s|
    ensures |r| > 0 ==> !ws(r[0]) && !ws(r[|r| - 1])
    ensures r == [] <==> forall i :: 0 <= i < |s| ==> ws(s[i])
  {
    TrimEnd(ws, TrimStart(ws, s))
  }

  /** The trim is the slice of `s` left after cutting whitespace off both ends. */
  lemma {:induction false} TrimIsCut(ws: char -> bool, s: string)
    ensures CutFrom(ws, s, TrimBy(ws, s), |s| - |TrimStart(ws, s)|)
  {
    var a := TrimStart(ws, s);
    var r := TrimEnd(ws, a);
    CutOfParts(ws, s, a, r);
  }

  lemma CutOfParts(ws: char -> bool, s: string, a: string, r: string)
    requires |a| <= |s| && a == s[|s| - |a|..]
    requires forall i :: 0 <= i < |s| - |a| ==> ws(s[i])
    requires |r| <= |a| && r == a[..|r|]
    requires forall i :: |r| <= i < |a| ==> ws(a[i])
    ensures CutFrom(ws, s, r, |s| - |a|)
  {
    var lo := |s| - |a|;
    assert r == s[lo..lo + |r|];
    forall i | lo + |r| <= i < |s| ensures ws(s[i]) {
      assert s[i] == a[i - lo];
    }
  }

  /** A string that neither starts nor ends with whitespace is its own trim. */
  lemma TrimSolid(ws: char -> bool, s: string)
    requires |s| > 0 && !ws(s[0]) && !ws(s[|s| - 1])
    ensures TrimBy(ws, s) == s
  {
    assert TrimStart(ws, s) == s;
  }

  /** Lower-casing preserves prefixes. */
  lemma LowerPrefix(p: string, s: string)
    requires IsPrefix(p, s)
    ensures IsPrefix(Lower(p), Lower(s))
  {
    assert forall i :: 0 <= i < |p| ==> Lower(s)[i] == LowerChar(s[i]) == LowerChar(p[i]);
  }

  /** Lower-casing works character by character, so it distributes over concatenation. */
  lemma LowerAppend(a: string, b: string)
    ensures Lower(a + b) == Lower(a) + Lower(b)
  {
    var l, r := Lower(a + b), Lower(a) + Lower(b);
    forall i | 0 <= i < |l| ensures l[i] == r[i] {
      if i < |a| {
        assert (a + b)[i] == a[i];
      } else {
        assert (a + b)[i] == b[i - |a|];
      }
    }
  }

  /** JavaScript `s.trim()`. */
  function Trim(s: string): string {
    TrimBy(IsJsSpace, s)
  }

  /** Python `s.strip()`. */
  function Strip(s: string): string {
    TrimBy(IsPySpace, s)
  }

  /** Trimming twice is trimming once. */
  lemma TrimIdempotent(ws: char -> bool, s: string)
    ensures TrimBy(ws, TrimBy(ws, s)) == TrimBy(ws, s)
  {
    var r := TrimBy(ws, s);
    assert TrimStart(ws, r) == r;
    assert TrimEnd(ws, r) == r;
  }

  /**
    Trimming `p + tail` keeps `p` intact at the front when `p` starts and ends
    with non-space characters.
   */
  lemma TrimKeepsSolidPrefix(ws: char -> bool, p: string, tail: string)
    requires |p| > 0 && !ws(p[0]) && !ws(p[|p| - 1])
    ensures |TrimBy(ws, p + tail)| >= |p| && TrimBy(ws, p + tail)[..|p|] == p
  {
    var s := p + tail;
    assert TrimStart(ws, s) == s;
    var r := TrimEnd(ws, s);
    assert s[|p| - 1] == p[|p| - 1];
    assert |r| >= |p|;
    assert r[..|p|] == s[..|p|] == p;
  }

  function LowerChar(c: char): char {
    if 'A' <= c <= 'Z' then (c as int + 32) as char else c
  }

  /** `toLowerCase()` / `lower()` restricted to the ASCII letters. */
  function Lower(s: string): (r: string)
    ensures |r| == |s|
    ensures forall i :: 0 <= i < |s| ==> r[i] == LowerChar(s[i])
  {
    seq(|s|, i requires 0 <= i < |s| => LowerChar(s[i]))
  }

  /** `s.startsWith(p)`. */
  predicate IsPrefix(p: string, s: string) {
    |p| <= |s| && s[..|p|] == p
  }

  /**
    The UTF-16 code units a character takes in a JavaScript string: two for
    a character beyond the Basic Multilingual Plane (a surrogate pair), one
    otherwise.
   */
  function Utf16Width(c: char): (w: nat)
    ensures 1 <= w <= 2
    ensures w == 2 <==> c as int >= 0x1_0000
  {
    if c as int >= 0x1_0000 then 2 else 1
  }

  /** JavaScript's `s.length`: the number of UTF-16 code units. */
  function Utf16Length(s: string): (n: nat)
    ensures |s| <= n <= 2 * |s|
  {
    if |s| == 0 then 0 else Utf16Width(s[0]) + Utf16Length(s[1..])
  }

  lemma {:induction false} Utf16LengthAppend(a: string, b: string)
    ensures Utf16Length(a + b) == Utf16Length(a) + Utf16Length(b)
  {
    if |a| > 0 {
      assert (a + b)[1..] == a[1..] + b;
      Utf16LengthAppend(a[1..], b);
    } else {
      assert a + b == b;
    }
  }

  /**
    JavaScript's `s.slice(0, n)` on whole characters: the longest prefix of
    `s` that fits in `n` code units. It is never empty when `s` is not and
    `n` leaves room for a surrogate pair.
   */
  function Utf16Prefix(s: string, n: nat): (r: string)
    ensures IsPrefix(r, s)
    ensures Utf16Length(r) <= n
    ensures |r| < |s| ==> Utf16Length(r) + Utf16Width(s[|r|]) > n
    ensures |s| > 0 && n >= 2 ==> |r| > 0
  {
    if |s| == 0 || Utf16Width(s[0]) > n then []
    else
      var rest := Utf16Prefix(s[1..], n - Utf16Width(s[0]));
      assert ([s[0]] + rest)[1..] == rest;
      [s[0]] + rest
  }

  /**
    A prefix that fits in `n` code units and cannot take one more character
    is the one `Utf16Prefix` cuts: the two properties pin it down.
   */
  lemma Utf16PrefixUnique(s: string, n: nat, p: string)
    requires IsPrefix(p, s) && Utf16Length(p) <= n
    requires |p| < |s| ==> Utf16Length(p) + Utf16Width(s[|p|]) > n
    ensures p == Utf16Prefix(s, n)
  {
    var r := Utf16Prefix(s, n);
    assert s[..|p|] == p && s[..|r|] == r;
    if |p| < |r| {
      Utf16PrefixGrows(s, |p|, |r|);
    } else if |r| < |p| {
      Utf16PrefixGrows(s, |r|, |p|);
    }
  }

  /** A longer prefix takes at least the code units of the character that extends the shorter one. */
  lemma Utf16PrefixGrows(s: string, i: nat, j: nat)
    requires i < j <= |s|
    ensures Utf16Length(s[..j]) >= Utf16Length(s[..i]) + Utf16Width(s[i])
  {
    assert s[..j] == s[..i] + s[i..j];
    Utf16LengthAppend(s[..i], s[i..j]);
    assert s[i..j][0] == s[i];
  }

  /** On text inside the Basic Multilingual Plane, code units are characters. */
  lemma {:induction false} Utf16LengthOfBmp(s: string)
    requires forall i :: 0 <= i < |s| ==> s[i] as int < 0x1_0000
    ensures Utf16Length(s) == |s|
  {
    if |s| > 0 {
      Utf16LengthOfBmp(s[1..]);
    }
  }

  /** On text inside the Basic Multilingual Plane, `slice` cuts whole characters. */
  lemma Utf16PrefixOfBmp(s: string, n: nat)
    requires forall i :: 0 <= i < |s| ==> s[i] as int < 0x1_0000
    ensures Utf16Prefix(s, n) == s[..if n < |s| then n else |s|]
  {
    var p := s[..if n < |s| then n else |s|];
    Utf16LengthOfBmp(p);
    Utf16PrefixUnique(s, n, p);
  }

  /** On text made of surrogate pairs only, `n` code units hold `n / 2` characters. */
  lemma {:induction false} Utf16PrefixOfAstral(s: string, n: nat)
    requires forall i :: 0 <= i < |s| ==> s[i] as int >= 0x1_0000
    ensures Utf16Length(s) == 2 * |s|
    ensures |Utf16Prefix(s, n)| == if n / 2 < |s| then n / 2 else |s|
  {
    if |s| > 0 {
      assert Utf16Width(s[0]) == 2;
      Utf16PrefixOfAstral(s[1..], if n < 2 then 0 else n - 2);
      if n >= 2 {
        assert |Utf16Prefix(s, n)| == 1 + |Utf16Prefix(s[1..], n - 2)|;
        assert (n - 2) / 2 == n / 2 - 1;
      }
    }
  }

  /** Whether `t` occurs in `s` at position `i`. */
  predicate OccursAt(s: string, t: string, i: int) {
    0 <= i && i + |t| <= |s| && s[i..i + |t|] == t
  }

  /** Python `t in s` / JavaScript `s.includes(t)`, scanning left to right. */
  function Contains(s: string, t: string): (r: bool)
    ensures r <==> exists i :: OccursAt(s, t, i)
  {
    if IsPrefix(t, s) then
      assert OccursAt(s, t, 0);
      true
    else if |s| == 0 then
      assert forall i :: !OccursAt(s, t, i);
      false
    else
      var r := Contains(s[1..], t);
      assert forall i :: OccursAt(s[1..], t, i) <==> OccursAt(s, t, i + 1);
      assert forall i :: OccursAt(s, t, i) ==> i == 0 || OccursAt(s[1..], t, i - 1);
      r
  }

  /** Python's `value or fallback` for an optional string: `None` and `""` are falsy. */
  function OrDefault(value: Option<string>, fallback: string): (r: string)
    ensures value.Some? && value.value != "" ==> r == value.value
    ensures value.None? || value.value == "" ==> r == fallback
  {
    if value.Some? && value.value != "" then value.value else fallback
  }

  /**
    Python's `(value or fallback).strip()` for a fallback that is already
    stripped: the stripped value when there is one, the fallback otherwise.
   */
  function StrippedOr(value: Option<string>, fallback: string): (r: string)
    ensures value.Some? && value.value != "" ==> r == Strip(value.value)
    ensures value.None? || value.value == "" ==> r == fallback
  {
    if value.Some? && value.value != "" then Strip(value.value) else fallback
  }

  /** `StrippedOr` is `(value or fallback).strip()` whenever stripping leaves the fallback as it is. */
  lemma StrippedOrIsStripOfOr(value: Option<string>, fallback: string)
    requires Strip(fallback) == fallback
    ensures StrippedOr(value, fallback) == Strip(OrDefault(value, fallback))
  {
  }
}

=== FILE: thread_store.dfy ===
/**
  The thread store of the browser: the thread list, kept most recently
  updated first, and the three ways the list changes (a thread is created
  at the front, one thread is edited in place and the list re-sorted, or a
  thread is removed).
 */
module ThreadStore {
  import opened Wrappers
  import opened Text
  import opened Seqs
  import opened Entities

  /** Most recently updated first. */
  ghost predicate SortedByRecency(ts: seq<Thread>) {
    forall i, j :: 0 <= i < j < |ts| ==> ts[i].updatedAt >= ts[j].updatedAt
  }

  /** No two threads share an id. */
  ghost predicate DistinctIds(ts: seq<Thread>) {
    forall i, j :: 0 <= i < j < |ts| ==> ts[i].id != ts[j].id
  }

  /** `chats.some((item) => item.id === id)`. */
  predicate HasId(ts: seq<Thread>, id: string) {
    exists y :: y in ts && y.id == id
  }

  /** `findIndex` by id: the index of the first thread with this id. */
  function FindIndex(ts: seq<Thread>, id: string): (r: Option<nat>)
    ensures r.Some? ==> r.value < |ts| && ts[r.value].id == id
    ensures r.Some? ==> forall j :: 0 <= j < r.value ==> ts[j].id != id
    ensures r.None? <==> !HasId(ts, id)
  {
    IndexWhere(ts, (t: Thread) => t.id == id, 0)
  }

  /** `find` by id: the first thread with this id. */
  function FindThread(ts: seq<Thread>, id: string): (r: Option<Thread>)
    ensures r.Some? ==> r.value in ts && r.value.id == id
    ensures r.None? <==> !HasId(ts, id)
  {
    match FindIndex(ts, id)
    case Some(i) => Some(ts[i])
    case None => None
  }

  /** With distinct ids, the thread found for an id is the one member carrying it. */
  lemma FindThreadOfMember(ts: seq<Thread>, t: Thread)
    requires DistinctIds(ts) && t in ts
    ensures FindThread(ts, t.id) == Some(t)
  {
    var k :| 0 <= k < |ts| && ts[k] == t;
    var i := FindIndex(ts, t.id).value;
    assert i == k;
  }

  /**
    Places `x` in front of the first thread not more recent than it. Applied
    from the back of a list this is a stable sort, which is what the
    browser's `Array.prototype.sort` is required to be.
   */
  function InsertByRecency(x: Thread, ts: seq<Thread>): (r: seq<Thread>)
    ensures |r| == |ts| + 1
    ensures multiset(r) == multiset(ts) + multiset{x}
  {
    if |ts| == 0 || x.updatedAt >= ts[0].updatedAt then
      [x] + ts
    else
      assert ts == [ts[0]] + ts[1..];
      [ts[0]] + InsertByRecency(x, ts[1..])
  }

  lemma {:induction false} InsertKeepsOrder(x: Thread, ts: seq<Thread>)
    requires SortedByRecency(ts)
    ensures SortedByRecency(InsertByRecency(x, ts))
  {
    if |ts| > 0 && x.updatedAt < ts[0].updatedAt {
      var tail := ts[1..];
      var rest := InsertByRecency(x, tail);
      InsertKeepsOrder(x, tail);
      InsertMembers(x, tail);
      forall y | y in rest ensures y.updatedAt <= ts[0].updatedAt {
        if y != x {
          var j :| 0 <= j < |tail| && tail[j] == y;
          assert ts[j + 1] == y;
        }
      }
      ConsKeepsOrder(ts[0], rest);
    }
  }

  lemma InsertMembers(x: Thread, ts: seq<Thread>)
    ensures forall y :: y in InsertByRecency(x, ts) <==> y == x || y in ts
  {
    var r := InsertByRecency(x, ts);
    forall y ensures y in r <==> y == x || y in ts {
      assert y in r <==> y in multiset(r);
    }
  }

  lemma ConsKeepsOrder(h: Thread, ts: seq<Thread>)
    requires SortedByRecency(ts)
    requires forall y :: y in ts ==> y.updatedAt <= h.updatedAt
    ensures SortedByRecency([h] + ts)
  {
    var r := [h] + ts;
    forall i, j | 0 <= i < j < |r| ensures r[i].updatedAt >= r[j].updatedAt {
      assert r[j] == ts[j - 1];
      if i > 0 {
        assert r[i] == ts[i - 1];
      }
    }
  }

  lemma {:induction false} InsertKeepsDistinct(x: Thread, ts: seq<Thread>)
    requires DistinctIds(ts) && !HasId(ts, x.id)
    ensures DistinctIds(InsertByRecency(x, ts))
  {
    if |ts| > 0 && x.updatedAt < ts[0].updatedAt {
      var tail := ts[1..];
      var rest := InsertByRecency(x, tail);
      assert ts == [ts[0]] + tail;
      InsertKeepsDistinct(x, tail);
      InsertMembers(x, tail);
      assert ts[0] in ts;
      forall y | y in rest ensures y.id != ts[0].id {
        if y != x {
          var j :| 0 <= j < |tail| && tail[j] == y;
          assert ts[j + 1] == y;
        }
      }
      ConsKeepsDistinct(ts[0], rest);
    }
  }

  lemma ConsKeepsDistinct(h: Thread, ts: seq<Thread>)
    requires DistinctIds(ts)
    requires forall y :: y in ts ==> y.id != h.id
    ensures DistinctIds([h] + ts)
  {
    var r := [h] + ts;
    forall i, j | 0 <= i < j < |r| ensures r[i].id != r[j].id {
      assert r[j] == ts[j - 1];
      if i > 0 {
        assert r[i] == ts[i - 1];
      }
    }
  }

  /**
    `next.sort((a, b) => b.updatedAt - a.updatedAt)`: a permutation of the
    list, most recently updated first.
   */
  function SortByRecency(ts: seq<Thread>): (r: seq<Thread>)
    ensures |r| == |ts|
    ensures multiset(r) == multiset(ts)
  {
    if |ts| == 0 then []
    else
      assert ts == [ts[0]] + ts[1..];
      InsertByRecency(ts[0], SortByRecency(ts[1..]))
  }

  lemma {:induction false} SortIsOrdered(ts: seq<Thread>)
    ensures SortedByRecency(SortByRecency(ts))
  {
    if |ts| > 0 {
      SortIsOrdered(ts[1..]);
      InsertKeepsOrder(ts[0], SortByRecency(ts[1..]));
    }
  }

  lemma {:induction false} SortKeepsDistinct(ts: seq<Thread>)
    requires DistinctIds(ts)
    ensures DistinctIds(SortByRecency(ts))
  {
    if |ts| > 0 {
      var tail := ts[1..];
      HeadApart(ts);
      SortKeepsDistinct(tail);
      var rest := SortByRecency(tail);
      SortMembers(tail);
      InsertKeepsDistinct(ts[0], rest);
    }
  }

  /** The threads after the first have distinct ids, none of them the first's. */
  lemma HeadApart(ts: seq<Thread>)
    requires |ts| > 0 && DistinctIds(ts)
    ensures DistinctIds(ts[1..]) && !HasId(ts[1..], ts[0].id)
  {
    var tail := ts[1..];
    forall i, j | 0 <= i < j < |tail| ensures tail[i].id != tail[j].id {
      assert tail[i] == ts[i + 1] && tail[j] == ts[j + 1];
    }
    forall y | y in tail ensures y.id != ts[0].id {
      var j :| 0 <= j < |tail| && tail[j] == y;
      assert ts[j + 1] == y;
    }
  }

  /** Sorting keeps exactly the same threads. */
  lemma SortMembers(ts: seq<Thread>)
    ensures forall y :: y in SortByRecency(ts) <==> y in ts
  {
    var r := SortByRecency(ts);
    forall y ensures y in r <==> y in ts {
      assert y in r <==> y in multiset(r);
      assert y in ts <==> y in multiset(ts);
    }
  }

  /** Sorting a list that is already in order changes nothing. */
  lemma {:induction false} SortOfSortedIsIdentity(ts: seq<Thread>)
    requires SortedByRecency(ts)
    ensures SortByRecency(ts) == ts
  {
    if |ts| > 0 {
      SortOfSortedIsIdentity(ts[1..]);
      assert ts == [ts[0]] + ts[1..];
    }
  }

  /** The changes `upsertChat` is asked to make to one thread. */
  datatype ThreadEdit =
    | AppendReply(reply: Message, now: int)
    | RecordUserTurn(turn: Message, now: int)
    | DropMessage(messageId: string, now: int)

  /** The messages whose id differs from `id`, in order (`filter`). */
  function WithoutMessage(ms: seq<Message>, id: string): (r: seq<Message>)
    ensures |r| <= |ms|
  {
    if |ms| == 0 then []
    else if ms[0].id == id then WithoutMessage(ms[1..], id)
    else [ms[0]] + WithoutMessage(ms[1..], id)
  }

  /** No message but the `k`-th carries `id`. */
  ghost predicate IdOnlyAt(ms: seq<Message>, id: string, k: nat) {
    forall j :: 0 <= j < |ms| && j != k ==> ms[j].id != id
  }

  /** When exactly the `k`-th message carries `id`, the filter removes just it. */
  lemma {:induction false} WithoutUniqueMessage(ms: seq<Message>, id: string, k: nat)
    requires k < |ms| && ms[k].id == id
    requires IdOnlyAt(ms, id, k)
    ensures WithoutMessage(ms, id) == ms[..k] + ms[k + 1..]
  {
    var tail := ms[1..];
    if k == 0 {
      WithoutAbsentMessage(tail, id);
    } else {
      assert IdOnlyAt(tail, id, k - 1) by {
        forall j | 0 <= j < |tail| && j != k - 1 ensures tail[j].id != id {
          assert tail[j] == ms[j + 1];
        }
      }
      WithoutUniqueMessage(tail, id, k - 1);
      assert tail[..k - 1] == ms[1..k];
      assert tail[k..] == ms[k + 1..];
      assert ms[..k] == [ms[0]] + ms[1..k];
    }
  }

  /** Dropping by id keeps exactly the messages with another id. */
  lemma {:induction false} WithoutMessageMembers(ms: seq<Message>, id: string)
    ensures forall m :: m in WithoutMessage(ms, id) <==> m in ms && m.id != id
  {
    if |ms| > 0 {
      WithoutMessageMembers(ms[1..], id);
      assert ms == [ms[0]] + ms[1..];
    }
  }

  lemma {:induction false} WithoutAbsentMessage(ms: seq<Message>, id: string)
    requires forall j :: 0 <= j < |ms| ==> ms[j].id != id
    ensures WithoutMessage(ms, id) == ms
  {
    if |ms| > 0 {
      WithoutAbsentMessage(ms[1..], id);
      assert ms == [ms[0]] + ms[1..];
    }
  }

  /**
    The thread's title once `content` is its first message
    (`content.slice(0, 42)`): as many leading characters as fit in 42 UTF-16
    code units. A thread that already has messages keeps its title.
   */
  function FirstTurnTitle(t: Thread, content: string): (title: string)
    ensures |t.messages| > 0 ==> title == t.title
    ensures |t.messages| == 0 ==> IsPrefix(title, content) && Utf16Length(title) <= 42
    ensures |t.messages| == 0 && |title| < |content| ==> Utf16Length(title) + Utf16Width(content[|title|]) > 42
  {
    if |t.messages| > 0 then t.title else Utf16Prefix(content, 42)
  }

  /**
    The updaters of the source: each keeps the thread's identity and creation
    time and stamps `updatedAt` with the time of the edit.
   */
  function ApplyEdit(t: Thread, e: ThreadEdit): (r: Thread)
    ensures r.id == t.id && r.createdAt == t.createdAt && r.updatedAt == e.now
    ensures e.AppendReply? ==> r.messages == t.messages + [e.reply] && r.title == t.title
    ensures e.RecordUserTurn? ==> r.messages == t.messages + [e.turn]
    ensures e.RecordUserTurn? && |t.messages| > 0 ==> r.title == t.title
    ensures e.RecordUserTurn? && |t.messages| == 0 ==> r.title == Utf16Prefix(e.turn.content, 42)
    ensures e.DropMessage? ==> r.title == t.title
    ensures e.DropMessage? ==> forall m :: m in r.messages <==> m in t.messages && m.id != e.messageId
  {
    match e
    case AppendReply(m, now) => t.(updatedAt := now, messages := t.messages + [m])
    case RecordUserTurn(m, now) =>
      t.(title := FirstTurnTitle(t, m.content), updatedAt := now, messages := t.messages + [m])
    case DropMessage(id, now) =>
      WithoutMessageMembers(t.messages, id);
      t.(messages := WithoutMessage(t.messages, id), updatedAt := now)
  }

  /**
    `upsertChat`: a missing id leaves the list as it is (a deleted thread is
    never recreated); otherwise the first thread with the id is edited in
    place and the list is re-sorted, so the result is the old list with that
    one thread replaced, in recency order.
   */
  function Upsert(ts: seq<Thread>, id: string, e: ThreadEdit): (r: seq<Thread>)
    ensures !HasId(ts, id) ==> r == ts
    ensures HasId(ts, id) ==> SortedByRecency(r)
    ensures |r| == |ts|
    ensures HasId(ts, id) ==>
              var i := FindIndex(ts, id).value;
              multiset(r) == multiset(ts[i := ApplyEdit(ts[i], e)])
    ensures forall x :: HasId(r, x) <==> HasId(ts, x)
  {
    match FindIndex(ts, id)
    case None => ts
    case Some(i) =>
      var next := ts[i := ApplyEdit(ts[i], e)];
      var r := SortByRecency(next);
      SortIsOrdered(next);
      SameIdsAfterEdit(ts, i, e);
      SameIdsAfterPermutation(next, r);
      r
  }

  lemma SameIdsAfterEdit(ts: seq<Thread>, i: nat, e: ThreadEdit)
    requires i < |ts|
    ensures forall x :: HasId(ts[i := ApplyEdit(ts[i], e)], x) <==> HasId(ts, x)
  {
    var next := ts[i := ApplyEdit(ts[i], e)];
    forall x ensures HasId(next, x) <==> HasId(ts, x) {
      if HasId(next, x) {
        var y :| y in next && y.id == x;
        var j :| 0 <= j < |next| && next[j] == y;
        assert ts[j] in ts && ts[j].id == x;
      }
      if HasId(ts, x) {
        var y :| y in ts && y.id == x;
        var j :| 0 <= j < |ts| && ts[j] == y;
        assert next[j] in next && next[j].id == x;
      }
    }
  }

  lemma SameIdsAfterPermutation(a: seq<Thread>, b: seq<Thread>)
    requires multiset(a) == multiset(b)
    ensures forall x :: HasId(a, x) <==> HasId(b, x)
  {
    forall x ensures HasId(a, x) <==> HasId(b, x) {
      if HasId(a, x) {
        var y :| y in a && y.id == x;
        assert y in multiset(b);
      }
      if HasId(b, x) {
        var y :| y in b && y.id == x;
        assert y in multiset(a);
      }
    }
  }

  /** An upsert keeps the ids of the list distinct. */
  lemma UpsertKeepsDistinct(ts: seq<Thread>, id: string, e: ThreadEdit)
    requires DistinctIds(ts)
    ensures DistinctIds(Upsert(ts, id, e))
  {
    if HasId(ts, id) {
      var i := FindIndex(ts, id).value;
      var next := ts[i := ApplyEdit(ts[i], e)];
      assert forall j :: 0 <= j < |ts| ==> next[j].id == ts[j].id;
      SortKeepsDistinct(next);
    }
  }

  /**
    With distinct ids, after an upsert the thread with the id is the edited
    thread and every other id finds what it found before.
   */
  lemma UpsertFind(ts: seq<Thread>, id: string, e: ThreadEdit, other: string)
    requires DistinctIds(ts) && HasId(ts, id) && other != id
    ensures FindThread(Upsert(ts, id, e), id) == Some(ApplyEdit(FindThread(ts, id).value, e))
    ensures FindThread(Upsert(ts, id, e), other) == FindThread(ts, other)
  {
    UpsertFindEdited(ts, id, e);
    UpsertFindOther(ts, id, e, other);
  }

  lemma UpsertFindEdited(ts: seq<Thread>, id: string, e: ThreadEdit)
    requires DistinctIds(ts) && HasId(ts, id)
    ensures FindThread(Upsert(ts, id, e), id) == Some(ApplyEdit(FindThread(ts, id).value, e))
  {
    var i := FindIndex(ts, id).value;
    var edited := ApplyEdit(ts[i], e);
    var r := Upsert(ts, id, e);
    UpsertKeepsDistinct(ts, id, e);
    assert edited in multiset(ts[i := edited]);
    assert edited in multiset(r);
    FindThreadOfMember(r, edited);
  }

  lemma UpsertFindOther(ts: seq<Thread>, id: string, e: ThreadEdit, other: string)
    requires DistinctIds(ts) && HasId(ts, id) && other != id
    ensures FindThread(Upsert(ts, id, e), other) == FindThread(ts, other)
  {
    var i := FindIndex(ts, id).value;
    var next := ts[i := ApplyEdit(ts[i], e)];
    var r := Upsert(ts, id, e);
    UpsertKeepsDistinct(ts, id, e);
    match FindThread(ts, other)
    case Some(y) =>
      var k :| 0 <= k < |ts| && ts[k] == y;
      assert k != i;
      assert next[k] == y;
      assert y in multiset(next);
      assert y in multiset(r);
      FindThreadOfMember(r, y);
    case None =>
      assert !HasId(r, other);
  }

  /**
    `title: text.trim().slice(0, 42) || "New Chat"`: the trimmed text cut to
    42 UTF-16 code units, or "New Chat" when nothing is left.
   */
  function TitleFor(text: string): (title: string)
    ensures 0 < |title| <= 42 && Utf16Length(title) <= 42
    ensures Trim(text) == [] ==> title == "New Chat"
    ensures Trim(text) != [] ==> IsPrefix(title, Trim(text))
    ensures Trim(text) != [] && |title| < |Trim(text)| ==>
              Utf16Length(title) + Utf16Width(Trim(text)[|title|]) > 42
  {
    var t := Utf16Prefix(Trim(text), 42);
    if t == [] then "New Chat" else t
  }

  /** The thread `createChat` allocates: empty, created and updated at `now`. */
  function NewThread(id: string, text: string, now: int): (t: Thread)
    ensures t.id == id && t.messages == [] && t.createdAt == now && t.updatedAt == now
    ensures t.title == TitleFor(text)
  {
    Thread(id, TitleFor(text), now, now, [])
  }

  /**
    `createChat` puts the new thread at the front without re-sorting: the
    order survives when the clock has not gone back behind any thread.
   */
  lemma PrependKeepsOrder(ts: seq<Thread>, t: Thread)
    requires SortedByRecency(ts)
    requires forall j :: 0 <= j < |ts| ==> ts[j].updatedAt <= t.updatedAt
    ensures SortedByRecency([t] + ts)
  {
  }

  /** `chats.filter((item) => item.id !== chatId)`. */
  function RemoveThread(ts: seq<Thread>, id: string): (r: seq<Thread>)
    ensures |r| <= |ts|
    ensures forall y :: y in r <==> y in ts && y.id != id
  {
    if |ts| == 0 then []
    else if ts[0].id == id then RemoveThread(ts[1..], id)
    else [ts[0]] + RemoveThread(ts[1..], id)
  }

  /**
    Deletion leaves no thread with the id and every other id as present as
    it was; a missing id leaves the list as it is.
   */
  lemma RemoveThreadIds(ts: seq<Thread>, id: string)
    ensures !HasId(RemoveThread(ts, id), id)
    ensures forall x :: x != id ==> (HasId(RemoveThread(ts, id), x) <==> HasId(ts, x))
  {
  }

  lemma {:induction false} RemoveAbsentThread(ts: seq<Thread>, id: string)
    requires !HasId(ts, id)
    ensures RemoveThread(ts, id) == ts
  {
    if |ts| > 0 {
      assert ts[0] in ts;
      assert forall y :: y in ts[1..] ==> y in ts;
      RemoveAbsentThread(ts[1..], id);
      assert ts == [ts[0]] + ts[1..];
    }
  }

  /** Deleting keeps the recency order and the distinctness of ids. */
  lemma RemoveThreadKeepsInvariants(ts: seq<Thread>, id: string)
    ensures SortedByRecency(ts) ==> SortedByRecency(RemoveThread(ts, id))
    ensures DistinctIds(ts) ==> DistinctIds(RemoveThread(ts, id))
  {
    if SortedByRecency(ts) {
      RemoveKeepsOrder(ts, id);
    }
    if DistinctIds(ts) {
      RemoveKeepsDistinct(ts, id);
    }
  }

  lemma {:induction false} RemoveKeepsOrder(ts: seq<Thread>, id: string)
    requires SortedByRecency(ts)
    ensures SortedByRecency(RemoveThread(ts, id))
  {
    if |ts| > 0 {
      var tail := ts[1..];
      var rest := RemoveThread(tail, id);
      RemoveKeepsOrder(tail, id);
      if ts[0].id != id {
        forall j | 0 <= j < |rest| ensures rest[j].updatedAt <= ts[0].updatedAt {
          assert rest[j] in tail;
        }
        PrependKeepsOrder(rest, ts[0]);
      }
    }
  }

  lemma {:induction false} RemoveKeepsDistinct(ts: seq<Thread>, id: string)
    requires DistinctIds(ts)
    ensures DistinctIds(RemoveThread(ts, id))
  {
    if |ts| > 0 {
      var tail := ts[1..];
      var rest := RemoveThread(tail, id);
      RemoveKeepsDistinct(tail, id);
      if ts[0].id != id {
        forall j | 0 <= j < |rest| ensures rest[j].id != ts[0].id {
          assert rest[j] in tail;
        }
        var r := [ts[0]] + rest;
        forall i, j | 0 <= i < j < |r| ensures r[i].id != r[j].id {
          if i > 0 {
            assert r[i] == rest[i - 1] && r[j] == rest[j - 1];
          }
        }
      }
    }
  }
}

=== FILE: wrappers.dfy ===
/** The optional value used wherever the source has `null`, `undefined` or `None`. */
module Wrappers {

  datatype Option<+T> = None | Some(value: T) {

    /** The wrapped value, or `default` when there is none (the `x || default` idiom). */
    function GetOr(default: T): T {
      match this
      case Some(v) => v
      case None => default
    }
  }
}
